=== FILE: README.md ===
# Place ID website check: the extraction engine in Dafny

This project models the core of the Place ID Check API service
(`nodejs-api/index.js`). Given a Google Maps place id, the service fetches
the place page and finds the JSON state embedded in it. It then searches
that state for the place's own website and reports whether the caller's
domain occurs in it. The model covers:

- **Text** (`text.dfy`): the ECMAScript string operations the engine uses.
  These are `trim` and the `\s` class (the same WhiteSpace + LineTerminator
  set), `startsWith`, `endsWith`, `indexOf` and `includes`, `replace` with a
  string pattern (first occurrence only), and `toLowerCase` on ASCII letters.
- **JsonTree** (`json.dfy`): the value `JSON.parse` returns, as a tagged
  union. Also JavaScript truthiness and the property read `x[i]` on arrays,
  strings and objects.
- **Search** (`search.dfy`): `findWebsiteInTree`, a depth-bounded,
  short-circuiting search over arrays. It is checked against an independent
  reference, the pre-order list of all allowed `[url, text]` pairs.
- **Locator** (`locator.dfy`): the payload locator. It handles the `)]}'`
  prefix and the five `window.APP_INITIALIZATION_STATE` regular expressions,
  tried in order, with the bracket check and the `match` variable left by the
  loop. Each regular expression is modelled twice:
  - a scanner (`MatchAt`, `FindMatch`, `Capture`);
  - a declarative statement of what a match is (`IsMatch`).
  Lemmas prove that the scanner returns the match an ECMAScript engine reports.
  That is the leftmost start, with the greedy `\s*` runs as long as possible
  and the lazy `(.*?)` as short as possible.
- **Engine** (`engine.dfy`): the body of `PlaceIDSorgula`. It covers the
  locate, parse, search and `mainData[3][6]` fallback steps and the
  classification into statuses 1, 0 and 4. The JSON parser and the HTTP
  fetch are function parameters:
  - `parse` returns `None` where `JSON.parse` throws;
  - `fetch` returns `Failure(message)` where the curl call throws.
- **Domain** (`domain.dfy`): `domainEslesiyor`, a case-insensitive
  containment test.
- **Api** (`api.dfy`): the token check of `authMiddleware` and the
  validation and response of `POST /api/check`. A response is reduced to its
  status code and JSON body.

Notable consequences of the code as written:

- **Objects are never searched.** The search descends into arrays only
  (`index.js:78`); objects are returned past like any other non-array value.
- **Rejected captures still reach the parser.** A page where some pattern
  matched but no capture was bracketed is not rejected with the locator's
  error. `match` is non-null at line 171 in that case, because the last,
  bare pattern matches whenever any pattern does (`AnyMatchImpliesBareMatch`).
  So the whole page is handed to `JSON.parse`, and a failure reads
  "JSON parse hatası".
- **The inner prefix test is not trimmed.** The fallback's `)]}'` test is
  made on the untrimmed inner string (`index.js:193`).
- **`var\s` accepts any whitespace character** after `var`, not only a
  space.

## Model

| member | source | states |
|---|---|---|
| Text.Trim | nodejs-api/index.js:147-148 | the result is a slice of the input with only whitespace cut from either end, and it neither starts nor ends with whitespace |
| Text.IndexOfFrom | nodejs-api/index.js:84 | a returned index is an occurrence at or after the start with no earlier one; `None` means no occurrence at all |
| Text.ContainsIffOccurs | nodejs-api/index.js:230 | `includes` holds exactly when the pattern occurs at some index |
| Text.TrimIdempotent | nodejs-api/index.js:244 | trimming an already trimmed text changes nothing |
| Text.TrimSkipsWhitespace | nodejs-api/index.js:148 | leading whitespace makes no difference to a trim |
| Text.StripTrimmedPrefix | nodejs-api/index.js:147-148 | when the trimmed payload starts with the prefix, removing its first occurrence and trimming leaves exactly the trimmed text after the leading prefix |
| JsonTree.LookupLast | nodejs-api/index.js:192 | a member named by the key is found exactly when one exists, and its value is that of the last such member, as `JSON.parse` keeps the last duplicate key |
| JsonTree.DecimalKeyRoundTrip | nodejs-api/index.js:190-192 | the property key an index is read under spells that index back in decimal |
| JsonTree.DecimalKeyInjective | nodejs-api/index.js:190-192 | `x[3]` and `x[6]` on an object read distinct members: distinct indices give distinct keys |
| JsonTree.Index | nodejs-api/index.js:190-193 | on an array, `x[i]` is the element when `i` is in range and undefined otherwise; on a string it is a one-character string; on null, booleans and numbers it is undefined |
| Search.FindWebsite | nodejs-api/index.js:74-97 | a found URL is an http(s) URL outside the Google Maps and image hosts; past depth 50 or on a non-array nothing is found |
| Search.FindInItems | nodejs-api/index.js:91-94 | a URL found among the children is an allowed URL |
| Search.FindIsFirstInPreOrder | nodejs-api/index.js:78-95 | the search returns exactly the first allowed pair of the reference pre-order enumeration of arrays within the depth bound |
| Search.FindInItemsIsFirstInPreOrder | nodejs-api/index.js:91-94 | the loop over children returns the first allowed pair of the children's pre-order |
| Search.FoundUrlIsAPairOfTheTree | nodejs-api/index.js:74-97 | a found URL is one of the tree's allowed pairs, and nothing is found exactly when the tree has none |
| Search.DirectPairWins | nodejs-api/index.js:79-87 | an array whose first two entries are a string pair with an allowed URL yields that URL, whatever follows |
| Search.FindInItemsConcat | nodejs-api/index.js:91-94 | children are tried left to right and the first success wins |
| Search.NestIsDeeper | nodejs-api/index.js:91-93 | wrapping a value in single-element arrays only increases the depth it is searched at |
| Search.PairFoundIffWithinDepthLimit | nodejs-api/index.js:75 | a pair nested `k` levels deep is found if and only if `k <= 50` |
| Locator.SkipWhitespace | nodejs-api/index.js:151 | the greedy `\s*` run ends at the end of the text or at a non-whitespace character, with only whitespace before it |
| Locator.CaptureEnd | nodejs-api/index.js:151-155 | the lazy capture ends at the first `;` followed by the tail, with no line terminator before it; no earlier `;` closes it |
| Locator.FindMatch | nodejs-api/index.js:160 | the search reports the leftmost start index that has a match, and none when no index does |
| Locator.MatchAtSound | nodejs-api/index.js:151-155 | every match the scanner reports satisfies the regular expression |
| Locator.MatchAtComplete | nodejs-api/index.js:151-155 | every match of the regular expression at a start index is seen by the scanner, whose capture starts no earlier and, at the same start, ends no later |
| Locator.CaptureIffMatch | nodejs-api/index.js:160 | `payload.match(pattern)` is non-null exactly when the pattern matches somewhere, and the capture comes from a match |
| Locator.CaptureIsLeftmost | nodejs-api/index.js:160 | no index before the reported match's start has a match |
| Locator.AnyMatchImpliesBareMatch | nodejs-api/index.js:150-155 | whenever any of the five patterns matches, the last, bare pattern matches too |
| Locator.NoMarkerNoCapture | nodejs-api/index.js:151-155 | a page without `window.APP_INITIALIZATION_STATE` gives no match |
| Locator.CandidateIsOwnTrim | nodejs-api/index.js:161-163 | an accepted text is unchanged by a further trim |
| Locator.CandidateIsSliceOfCapture | nodejs-api/index.js:161-163 | an accepted text is a slice of the capture with only whitespace cut from either end |
| Locator.ScanCaptures | nodejs-api/index.js:158-169 | text accepted by the loop is bracketed |
| Locator.ScanAcceptsIffSomeCandidate | nodejs-api/index.js:158-169 | the loop accepts a text exactly when some pattern's result is accepted |
| Locator.ScanAcceptsFirstCandidate | nodejs-api/index.js:159-167 | the accepted text is that of the first accepted result, in pattern order |
| Locator.ScanExhaustedKeepsLastMatch | nodejs-api/index.js:158-171 | a loop that accepts nothing ends with `match` holding the last pattern's result |
| Locator.ExhaustedWithoutMatchIffNoPatternMatched | nodejs-api/index.js:158-171 | after an unsuccessful loop, `match` is null exactly when no pattern matched at all |
| Locator.Locate | nodejs-api/index.js:146-176 | an embedded JSON text starts with `[` and ends with `]` |
| Locator.LocatePrefixed | nodejs-api/index.js:147-148 | a payload whose trim starts with `)]}'` yields the trimmed text after that prefix, with no pattern consulted |
| Locator.LocateEmbedded | nodejs-api/index.js:158-169 | an HTML payload yields embedded text exactly when some pattern offers a bracketed capture |
| Locator.LocateEmbeddedFirst | nodejs-api/index.js:159-167 | the embedded text comes from the first pattern, in the fixed order, that offers one |
| Locator.LocateMissingIffNoMatch | nodejs-api/index.js:171-174 | an HTML payload is rejected with the locator's error exactly when no pattern matches anywhere |
| Locator.NoCaptureIffNoMatch | nodejs-api/index.js:150-160 | every pattern's `match` returns `null` exactly when no pattern matches anywhere in the page |
| Locator.LocateMissingIffNoCapture | nodejs-api/index.js:158-174 | an HTML payload is rejected with the locator's error exactly when every pattern's `match` returns `null` |
| Locator.LocateUnacceptedIff | nodejs-api/index.js:158-176 | the whole payload is handed on exactly when some pattern matched but none offered a bracketed capture |
| Locator.LocateWithoutMarker | nodejs-api/index.js:146-174 | an unprefixed payload without the marker, such as a bare JSON document, is rejected |
| Locator.AssignmentMatchesAt | nodejs-api/index.js:151 | an assignment `marker = text;literal` is matched at the marker, capturing exactly `text`, when `text` has no line break and no `;` followed by the literal; other `;` stay in the capture |
| Locator.FirstMarkerMatchIsCaptured | nodejs-api/index.js:160 | the match at the marker's first occurrence is the one `match` returns |
| Locator.AssignmentIsCaptured | nodejs-api/index.js:151-160 | the first pattern captures the text assigned at the marker's first occurrence, up to the first `;` followed by `window.APP_FLAGS` |
| Locator.LocateAssignment | nodejs-api/index.js:150-169 | a page carrying such an assignment with a bracketed text locates to that text, whatever other `;` the text holds |
| Locator.LocateEmbeddedState | nodejs-api/index.js:150-169 | embedding a bracketed state after the marker and locating again gives the state back, for every state without a line break or an inner `;window.APP_FLAGS`, when `before` holds no earlier marker and the page does not trim to a `)]}'`-prefixed text |
| Engine.Failed | nodejs-api/index.js:173 | a failure outcome keeps the outcome invariant |
| Engine.Classify | nodejs-api/index.js:208-215 | a successful outcome has status 1 exactly when a website is present, and status 0 otherwise |
| Engine.Fallback | nodejs-api/index.js:188-205 | whatever the inner document holds, the fallback only yields allowed URLs |
| Engine.Analyse | nodejs-api/index.js:178-215 | parsing and searching always give a well-formed outcome: status 0, 1 or 4, a website exactly with status 1, an error exactly on failure; the outcome fails exactly when `JSON.parse` of the located text throws, and then it is status 4 with 'JSON parse hatası' |
| Engine.Extract | nodejs-api/index.js:138-225 | every path gives a well-formed outcome; a failed fetch gives status 4 with `İstek başarısız: ` and the error message |
| Engine.QueryUrlSameIffSameTrim | nodejs-api/index.js:135 | two place ids address the same URL exactly when their trims agree |
| Engine.PlaceIdLookup | nodejs-api/index.js:134-226 | the lookup's outcome is well-formed |
| Engine.PrefixedPayloadIsParsedAfterPrefix | nodejs-api/index.js:147-180 | a prefixed payload is parsed from the trimmed text after its prefix |
| Engine.PrefixedParseFailureIsError | nodejs-api/index.js:147-184 | a prefixed payload whose trimmed text after `)]}'` `JSON.parse` rejects gives status 4 with 'JSON parse hatası' |
| Engine.NoPatternMatchIsError | nodejs-api/index.js:171-173 | an HTML page where no pattern matches fails with status 4 and the locator's message |
| Engine.UnprefixedDocumentIsRejected | nodejs-api/index.js:146-173 | a bare JSON document without prefix or marker fails with the locator's message before any parse |
| Engine.UnacceptedPayloadIsParsedWhole | nodejs-api/index.js:143-184 | when patterns matched but no capture was accepted, the whole page is analysed, and a parse failure is the parse error |
| Engine.EmbeddedCaptureIsParsed | nodejs-api/index.js:159-180 | the first accepted capture is what the parser sees |
| Engine.EmbeddedParseFailureIsError | nodejs-api/index.js:159-184 | a first accepted capture that `JSON.parse` rejects gives status 4 with 'JSON parse hatası' |
| Engine.ParsedTextNeverFails | nodejs-api/index.js:186-215 | once the outer text parses the lookup succeeds with status 0 or 1; an inner parse failure never gives status 4 |
| Engine.PrimaryResultWins | nodejs-api/index.js:186-188 | a website found by the primary search is reported with status 1 and the fallback is skipped |
| Engine.NonArrayRootWithoutResultIsNotFound | nodejs-api/index.js:188-189 | without a primary result a non-array root gives status 0 |
| Engine.LitePageIsNotFound | nodejs-api/index.js:190-191 | a missing, falsy or empty `mainData[3]` gives status 0 and no website |
| Engine.FallbackStripsInnerPrefix | nodejs-api/index.js:193-195 | the inner document is parsed from the trimmed text after its `)]}'` prefix |
| Engine.FallbackSearchesInnerDocument | nodejs-api/index.js:192-203 | the fallback's outcome is the search of the parsed inner document, or status 0 when that parse fails |
| Domain.DomainMatches | nodejs-api/index.js:228-231 | a match needs a non-empty website and a non-empty domain |
| Domain.LowerOccursAt | nodejs-api/index.js:230 | an occurrence in the lower-cased texts is an occurrence up to ASCII case |
| Domain.DomainMatchesIff | nodejs-api/index.js:228-231 | the matcher holds exactly when both sides are non-empty and the domain occurs in the website up to ASCII case |
| Domain.EmptyDomainNeverMatches | nodejs-api/index.js:229 | the empty domain never matches, although every text contains the empty string |
| Domain.MixedCaseHostMatches | nodejs-api/index.js:230 | `https://Example.COM` matches the domain `example.com` |
| Api.ConfiguredToken | nodejs-api/index.js:24 | the token is never empty and is the configured value when one is set and non-empty |
| Api.AuthorizeIff | nodejs-api/index.js:49-69 | a missing or empty header is refused as missing; a request is authorized exactly for `Bearer <token>`, or the raw token when it does not itself begin with `Bearer ` |
| Api.RequiredString | nodejs-api/index.js:236-241 | a field is accepted exactly when it is a string with a non-blank trim, and its trim is used |
| Api.NonBlankStringIsAccepted | nodejs-api/index.js:236-241 | a string field whose trim is non-blank passes validation and is used as that trim |
| Api.Report | nodejs-api/index.js:246-273 | the response data is consistent: statuses 0, 1, 4; found exactly with a website and status 1; a domain match exactly when the website contains the domain up to case; an error exactly with status 4 |
| Api.Check | nodejs-api/index.js:233-280 | the status code is 200, 400, 401 or 403; 200 exactly with success and data; 401 exactly for a missing or empty header; 403 exactly for a present header that does not authorize; success only for an authorized request; data is consistent, and its `placeid` and `domain` are the non-empty trims of the two string fields |
| Api.AcceptedFieldsAreLookedUp | nodejs-api/index.js:240-273 | an authorized request with both fields accepted answers 200 with the report of the lookup of the accepted place id |
| Api.BlankFieldIsBadRequest | nodejs-api/index.js:236-241 | an authorized request with a missing or blank field is a 400 |
| Api.FetchUsesTrimmedId | nodejs-api/index.js:244 | trimming the id before the lookup and again inside it address the same URL |
| Api.CheckReportsLookup | nodejs-api/index.js:243-274 | a valid authorized request answers 200 with the report of the lookup of the trimmed id and domain |
| Api.ReportCarriesOutcome | nodejs-api/index.js:246-273 | the report carries the lookup's website and error, and the domain matcher's verdict |
| Api.TransportFailureAnswers200 | nodejs-api/index.js:246-258 | a failed fetch still answers 200, with status 4, the request error and no website |
| Api.PageWithoutStateAnswersError | nodejs-api/index.js:246-258 | a page without prefix or marker answers 200 with status 4, the locator's message, no website and no domain match |
| Api.PrefixedPairIsReported | nodejs-api/index.js:261-273 | a prefixed payload whose JSON the search finds a URL in answers status 1 with that URL, and the domain match is containment up to case |
| Api.PrefixedPairIsFound | nodejs-api/index.js:147-188 | a prefixed payload whose JSON the search finds a URL in is classified found with that URL |
| Api.PrefixedBodyIsAnalysed | nodejs-api/index.js:147-148 | the text after a leading `)]}'` is what gets parsed |
| Api.TopLevelPairIsFound | nodejs-api/index.js:79-94 | the root `[[url, text]]` with an allowed URL yields that URL |
| Api.PrefixedTextIsPrefixed | nodejs-api/index.js:147 | text behind the prefix keeps it at the head of its trim |

## Left out

- `curlFetch` (`index.js:102-132`) is a parameter of the model. Its command line, headers, user agent, redirects and buffer size are not modelled. Its error becomes `Failure(message)`.
- `new URL(Baglanti).host` (`index.js:136`) is the constant `Engine.Referer`. The host of the fixed prefix is always `www.google.com`.
- `JSON.parse` is a parameter of the model. Its grammar and number conversion are not modelled.
- `typeof Kaynak === 'string'` (`index.js:146`) always holds, because the fetch yields text.
- The 500 handler of `/api/check` (`index.js:276-279`) cannot be reached in the model. `PlaceIDSorgula` catches its own errors, and the rest of the handler does not throw.
- Express wiring, body parsing, `/health`, the 404 and global error handlers, `app.listen`, `dotenv` and console logging are out of scope. They are I/O or framework plumbing.
- `simple_fetch.js` is not part of this model. It is a stand-alone fetch script.
- Domain.DomainMatches: only ASCII letters are case-folded. `toLowerCase` also folds the rest of Unicode, which the model does not encode.
- Text.Lower: the same ASCII-only restriction of `toLowerCase`.
- Text: strings are sequences of Unicode scalar values. JavaScript's UTF-16 code units, lone surrogates and lengths counted in code units are not modelled.
- JsonTree.Json: numbers carry an unbounded real, not a double. Only their truthiness matters here.

=== FILE: api.dfy ===
/** The request decisions of the service: the bearer-token check of
    `authMiddleware` and the validation and response shaping of
    `POST /api/check`. HTTP plumbing is reduced to the status code and the
    JSON body the handler would send. */
module Api {
  import opened Wrappers
  import opened Text
  import opened JsonTree
  import opened Search
  import opened Locator
  import opened Engine
  import opened Domain

  const DefaultToken: string := "default-secret-token"
  const BearerPrefix: string := "Bearer "

  const MissingHeaderMessage: string := "Authorization header eksik"
  const InvalidTokenMessage: string := "Geçersiz token"
  const PlaceIdRequiredMessage: string := "placeid zorunlu"
  const DomainRequiredMessage: string := "domain zorunlu"

  /** `process.env.API_TOKEN || 'default-secret-token'`: an unset or empty
      variable falls back to the default. */
  function ConfiguredToken(env: Option<string>): (token: string)
    ensures token != []
    ensures env.Some? && env.value != [] ==> token == env.value
  {
    if env.Some? && env.value != [] then env.value else DefaultToken
  }

  datatype Auth = MissingHeader | InvalidToken | Authorized

  /** `authMiddleware`: an absent or empty header is refused as missing; an
      exact `"Bearer "` prefix is dropped; the rest must equal the token. */
  function Authorize(header: Option<string>, token: string): Auth {
    if header.None? || header.value == [] then MissingHeader
    else
      var value := if StartsWith(header.value, BearerPrefix) then header.value[|BearerPrefix|..] else header.value;
      if value == token then Authorized else InvalidToken
  }

  /** The credentials accepted are the bearer form of the token, and the raw
      token itself unless it begins with the bearer prefix (then the prefix
      is stripped from it too and the comparison fails). */
  lemma AuthorizeIff(header: Option<string>, token: string)
    ensures Authorize(header, token) == MissingHeader <==> header.None? || header.value == []
    ensures Authorize(header, token) == Authorized <==>
      header.Some? && header.value != [] &&
      (header.value == BearerPrefix + token || (header.value == token && !StartsWith(token, BearerPrefix)))
  {
    if header.Some? && header.value != [] {
      var h := header.value;
      if h == BearerPrefix + token {
        assert h[..|BearerPrefix|] == BearerPrefix;
        assert h[|BearerPrefix|..] == token;
      }
      if StartsWith(h, BearerPrefix) && h[|BearerPrefix|..] == token {
        assert h == h[..|BearerPrefix|] + h[|BearerPrefix|..];
      }
    }
  }

  /** A required body field: `!v || typeof v !== 'string' || v.trim() === ''`
      rejects it; otherwise its trimmed text is used. */
  function RequiredString(v: Option<Json>): (r: Option<string>)
    ensures r.Some? <==> v.Some? && v.value.Str? && Trim(v.value.s) != []
    ensures r.Some? ==> r.value == Trim(v.value.s)
  {
    if !TruthyOpt(v) || !v.value.Str? || Trim(v.value.s) == [] then None
    else Some(Trim(v.value.s))
  }

  /** The `data` object of a 200 response. */
  datatype CheckData = CheckData(
    placeid: string,
    domain: string,
    websiteFound: bool,
    website: Option<string>,
    domainMatch: bool,
    status: nat,
    error: Option<string>)

  /** Status code and JSON body of a response; `data` only on 200. */
  datatype Response = Response(httpStatus: nat, success: bool, error: Option<string>, data: Option<CheckData>)

  /** What a caller may rely on in `data`: the status is 0, 1 or 4; a website
      is reported found exactly when present, exactly with status 1; a domain
      match implies a found website and is the case-insensitive containment
      of the domain in it; status 4 carries an error and nothing else. */
  ghost predicate Consistent(d: CheckData) {
    && d.status in {StatusNotFound, StatusFound, StatusError}
    && (d.websiteFound <==> d.website.Some?)
    && (d.websiteFound <==> d.status == StatusFound)
    && (d.domainMatch ==> d.websiteFound)
    && (d.domainMatch <==> d.websiteFound && exists i :: OccursIgnoringCaseAt(d.website.value, d.domain, i))
    && (d.status == StatusError <==> d.error.Some?)
    && (d.status == StatusError ==> !d.websiteFound && d.website.None? && !d.domainMatch)
  }

  /** The body of the handler once the lookup returned. */
  function Report(placeId: string, domain: string, o: Outcome): (d: CheckData)
    requires WellFormed(o) && domain != []
    ensures Consistent(d)
    ensures d.placeid == placeId && d.domain == domain && d.status == o.status
  {
    DomainMatchesIff(o.website, domain);
    if !o.success then
      CheckData(placeId, domain, false, None, false, o.status, o.error)
    else
      CheckData(placeId, domain, o.website.Some? && o.website.value != [], o.website,
                DomainMatches(o.website, domain), o.status, None)
  }

  /** `POST /api/check`, given the Authorization header, the `API_TOKEN`
      setting, the two body fields, and the fetch and parser the lookup
      uses. */
  function Check(header: Option<string>, env: Option<string>, placeid: Option<Json>, domain: Option<Json>,
                 fetch: Fetcher, parse: Parser): (r: Response)
    ensures r.httpStatus in {200, 400, 401, 403}
    ensures r.httpStatus == 200 <==> r.success
    ensures r.success <==> r.data.Some?
    ensures !r.success ==> r.error.Some?
    ensures r.httpStatus == 401 <==> header.None? || header.value == []
    ensures r.httpStatus == 403 <==> Authorize(header, ConfiguredToken(env)) == InvalidToken
    ensures r.success ==> Authorize(header, ConfiguredToken(env)) == Authorized
    ensures r.data.Some? ==> Consistent(r.data.value) && r.data.value.placeid != [] && r.data.value.domain != []
    ensures r.data.Some? ==> placeid.Some? && placeid.value.Str? && r.data.value.placeid == Trim(placeid.value.s)
    ensures r.data.Some? ==> domain.Some? && domain.value.Str? && r.data.value.domain == Trim(domain.value.s)
  {
    match Authorize(header, ConfiguredToken(env))
    case MissingHeader => Response(401, false, Some(MissingHeaderMessage), None)
    case InvalidToken => Response(403, false, Some(InvalidTokenMessage), None)
    case Authorized =>
      match RequiredString(placeid)
      case None => Response(400, false, Some(PlaceIdRequiredMessage), None)
      case Some(id) =>
        match RequiredString(domain)
        case None => Response(400, false, Some(DomainRequiredMessage), None)
        case Some(d) => Response(200, true, None, Some(Report(id, d, PlaceIdLookup(id, fetch, parse))))
  }

  // ---------------------------------------------------------------------
  // Properties of the handler

  /** Validation comes after authentication and before any lookup: an
      authorised request with a missing or blank field is a 400. */
  lemma BlankFieldIsBadRequest(header: Option<string>, env: Option<string>, placeid: Option<Json>, domain: Option<Json>,
                               fetch: Fetcher, parse: Parser)
    requires Authorize(header, ConfiguredToken(env)) == Authorized
    requires RequiredString(placeid).None? || RequiredString(domain).None?
    ensures Check(header, env, placeid, domain, fetch, parse).httpStatus == 400
  {
  }

  /** The place is fetched by its trimmed id: trimming the id before the
      lookup and again inside it address the same URL. */
  lemma FetchUsesTrimmedId(raw: string)
    ensures QueryUrl(Trim(raw)) == QueryUrl(raw)
  {
    TrimIdempotent(raw);
  }

  /** An accepted request answers 200 with the report of the lookup of
      the trimmed place id. */
  lemma CheckReportsLookup(header: Option<string>, env: Option<string>, placeid: string, domain: string,
                           fetch: Fetcher, parse: Parser)
    requires Authorize(header, ConfiguredToken(env)) == Authorized
    requires Trim(placeid) != [] && Trim(domain) != []
    ensures Check(header, env, Some(Str(placeid)), Some(Str(domain)), fetch, parse) ==
      Response(200, true, None, Some(Report(Trim(placeid), Trim(domain), Extract(fetch(QueryUrl(placeid), Referer), parse))))
  {
    var id, d := Trim(placeid), Trim(domain);
    NonBlankStringIsAccepted(placeid);
    NonBlankStringIsAccepted(domain);
    AcceptedFieldsAreLookedUp(header, env, Some(Str(placeid)), Some(Str(domain)), fetch, parse, id, d);
    LookupOfTrimmedId(placeid, fetch, parse);
  }

  /** A string field with a non-blank trim is accepted as that trim. */
  lemma NonBlankStringIsAccepted(s: string)
    requires Trim(s) != []
    ensures RequiredString(Some(Str(s))) == Some(Trim(s))
  {
  }

  /** The lookup of the trimmed id fetches the URL of the raw id. */
  lemma LookupOfTrimmedId(placeid: string, fetch: Fetcher, parse: Parser)
    ensures PlaceIdLookup(Trim(placeid), fetch, parse) == Extract(fetch(QueryUrl(placeid), Referer), parse)
  {
    FetchUsesTrimmedId(placeid);
  }

  /** Once both fields are accepted, the answer is the report of the
      lookup of the accepted place id. */
  lemma AcceptedFieldsAreLookedUp(header: Option<string>, env: Option<string>, placeid: Option<Json>, domain: Option<Json>,
                                  fetch: Fetcher, parse: Parser, id: string, d: string)
    requires Authorize(header, ConfiguredToken(env)) == Authorized
    requires RequiredString(placeid) == Some(id) && RequiredString(domain) == Some(d)
    ensures Check(header, env, placeid, domain, fetch, parse) ==
      Response(200, true, None, Some(Report(id, d, PlaceIdLookup(id, fetch, parse))))
  {
  }

  /** The report carries the lookup's website, and its error on failure. */
  lemma ReportCarriesOutcome(placeId: string, domain: string, o: Outcome)
    requires WellFormed(o) && domain != []
    ensures Report(placeId, domain, o).website == o.website
    ensures Report(placeId, domain, o).error == o.error
    ensures Report(placeId, domain, o).domainMatch == DomainMatches(o.website, domain)
  {
  }

  /** A failed fetch still answers 200, with status 4 and the error. */
  lemma TransportFailureAnswers200(header: Option<string>, env: Option<string>, placeid: string, domain: string,
                                   fetch: Fetcher, parse: Parser, message: string)
    requires Authorize(header, ConfiguredToken(env)) == Authorized
    requires Trim(placeid) != [] && Trim(domain) != []
    requires fetch(QueryUrl(placeid), Referer) == Failure(message)
    ensures var r := Check(header, env, Some(Str(placeid)), Some(Str(domain)), fetch, parse);
            r.httpStatus == 200 && r.data.Some? && r.data.value.status == StatusError &&
            r.data.value.error == Some(RequestFailedPrefix + message) && !r.data.value.websiteFound
  {
    CheckReportsLookup(header, env, placeid, domain, fetch, parse);
    var o := Extract(Failure(message), parse);
    ReportCarriesOutcome(Trim(placeid), Trim(domain), o);
  }

  /** An HTML page without the embedded state answers 200 with status 4, no
      website and the locator's error. */
  lemma PageWithoutStateAnswersError(header: Option<string>, env: Option<string>, placeid: string, domain: string,
                                     page: string, fetch: Fetcher, parse: Parser)
    requires Authorize(header, ConfiguredToken(env)) == Authorized
    requires Trim(placeid) != [] && Trim(domain) != []
    requires fetch(QueryUrl(placeid), Referer) == Success(page)
    requires !StartsWith(Trim(page), XssiPrefix) && !Contains(page, StateMarker)
    ensures var r := Check(header, env, Some(Str(placeid)), Some(Str(domain)), fetch, parse);
            r.httpStatus == 200 && r.data.Some? && r.data.value.status == StatusError &&
            !r.data.value.websiteFound && r.data.value.website.None? && !r.data.value.domainMatch &&
            r.data.value.error == Some(NoDataMessage)
  {
    CheckReportsLookup(header, env, placeid, domain, fetch, parse);
    UnprefixedDocumentIsRejected(page, parse);
    var o := Extract(Success(page), parse);
    ReportCarriesOutcome(Trim(placeid), Trim(domain), o);
  }

  /** A prefixed payload whose JSON holds an allowed URL, found by the
      search, is reported found, with the domain matched when it occurs in
      the URL up to case. */
  lemma PrefixedPairIsReported(token: string, placeid: string, domain: string, body: string,
                               fetch: Fetcher, parse: Parser, url: string)
    requires token != [] && Trim(placeid) != [] && Trim(domain) != []
    requires fetch(QueryUrl(placeid), Referer) == Success(XssiPrefix + body)
    requires parse(Trim(body)).Some? && FindWebsite(parse(Trim(body)).value, 0) == Some(url)
    ensures var r := Check(Some(BearerPrefix + token), Some(token), Some(Str(placeid)), Some(Str(domain)), fetch, parse);
            r.httpStatus == 200 && r.data.Some? && r.data.value.status == StatusFound &&
            r.data.value.websiteFound && r.data.value.website == Some(url) &&
            r.data.value.domainMatch == exists i :: OccursIgnoringCaseAt(url, Trim(domain), i)
  {
    AuthorizeIff(Some(BearerPrefix + token), token);
    CheckReportsLookup(Some(BearerPrefix + token), Some(token), placeid, domain, fetch, parse);
    PrefixedPairIsFound(body, parse, url);
    var o := Extract(Success(XssiPrefix + body), parse);
    ReportCarriesOutcome(Trim(placeid), Trim(domain), o);
    DomainMatchesIff(Some(url), Trim(domain));
  }

  /** The engine's part: a prefixed payload is parsed after its prefix, and
      what the search finds in it is reported found. */
  lemma PrefixedPairIsFound(body: string, parse: Parser, url: string)
    requires parse(Trim(body)).Some? && FindWebsite(parse(Trim(body)).value, 0) == Some(url)
    ensures Extract(Success(XssiPrefix + body), parse) == Classify(Some(url))
  {
    PrefixedBodyIsAnalysed(body, parse);
    PrimaryResultWins(Trim(body), parse);
  }

  /** The text after a literal prefix is what gets parsed. */
  lemma PrefixedBodyIsAnalysed(body: string, parse: Parser)
    ensures Extract(Success(XssiPrefix + body), parse) == Analyse(Trim(body), parse)
  {
    var payload := XssiPrefix + body;
    PrefixedTextIsPrefixed(body);
    PrefixedPayloadIsParsedAfterPrefix(payload, parse);
    assert TrimStart(payload) == payload by {
      TrimStartOfTrimmed(payload);
    }
    assert payload[|XssiPrefix|..] == body;
  }

  /** The root `[[url, text]]` with an allowed URL yields that URL. */
  lemma TopLevelPairIsFound(url: string, text: string)
    requires IsAllowedUrl(url)
    ensures FindWebsite(Arr([Arr([Str(url), Str(text)])]), 0) == Some(url)
  {
    var pair := Arr([Str(url), Str(text)]);
    DirectPairWins(url, text, [], 1);
    assert [Str(url), Str(text)] + [] == [Str(url), Str(text)];
    assert FindInItems([pair], 1) == Some(url);
  }

  /** Text behind the prefix keeps the prefix at the head of its trim. */
  lemma PrefixedTextIsPrefixed(body: string)
    ensures StartsWith(Trim(XssiPrefix + body), XssiPrefix)
  {
    var payload := XssiPrefix + body;
    TrimStartOfTrimmed(payload);
    assert TrimEnd(payload) == payload[..|TrimEnd(payload)|];
    assert |TrimEnd(payload)| >= |XssiPrefix| by {
      assert !IsWhitespace(payload[|XssiPrefix| - 1]);
    }
  }
}

=== FILE: domain.dfy ===
/** The domain matcher (`domainEslesiyor`): a deliberately loose,
    case-insensitive containment test of the caller's domain in the found
    URL, with no parsing of schemes, hosts or public suffixes. */
module Domain {
  import opened Wrappers
  import opened Text

  /** False when either side is absent or empty (both falsy in JavaScript);
      otherwise whether the lower-cased domain occurs in the lower-cased
      website. */
  function DomainMatches(website: Option<string>, domain: string): (r: bool)
    ensures r ==> website.Some? && website.value != [] && domain != []
  {
    if website.None? || website.value == [] || domain == [] then false
    else Contains(Lower(website.value), Lower(domain))
  }

  predicate SameIgnoringCase(a: char, b: char) {
    LowerChar(a) == LowerChar(b)
  }

  /** `domain` occurs in `text` at index `i` when ASCII case is ignored. */
  predicate OccursIgnoringCaseAt(text: string, domain: string, i: int) {
    0 <= i && i + |domain| <= |text| &&
    forall k :: 0 <= k < |domain| ==> SameIgnoringCase(text[i + k], domain[k])
  }

  lemma LowerOccursAt(text: string, domain: string, i: int)
    ensures OccursAt(Lower(text), Lower(domain), i) <==> OccursIgnoringCaseAt(text, domain, i)
  {
    if 0 <= i && i + |domain| <= |text| {
      var lt, ld := Lower(text), Lower(domain);
      if OccursAt(lt, ld, i) {
        forall k | 0 <= k < |domain|
          ensures SameIgnoringCase(text[i + k], domain[k])
        {
          assert lt[i..i + |ld|][k] == lt[i + k];
        }
      }
      if OccursIgnoringCaseAt(text, domain, i) {
        assert lt[i..i + |ld|] == ld;
      }
    }
  }

  /** The matcher holds exactly when both sides are non-empty and the domain
      occurs in the website up to ASCII case. */
  lemma DomainMatchesIff(website: Option<string>, domain: string)
    ensures DomainMatches(website, domain) <==>
      website.Some? && website.value != [] && domain != [] &&
      exists i :: OccursIgnoringCaseAt(website.value, domain, i)
  {
    if website.Some? && website.value != [] && domain != [] {
      var lw, ld := Lower(website.value), Lower(domain);
      ContainsIffOccurs(lw, ld);
      if exists i :: OccursIgnoringCaseAt(website.value, domain, i) {
        var i :| OccursIgnoringCaseAt(website.value, domain, i);
        LowerOccursAt(website.value, domain, i);
      }
      if Contains(lw, ld) {
        var i :| OccursAt(lw, ld, i);
        LowerOccursAt(website.value, domain, i);
      }
    }
  }

  /** The empty domain matches nothing, although every text contains the
      empty string. */
  lemma EmptyDomainNeverMatches(website: Option<string>)
    ensures !DomainMatches(website, "")
    ensures website.Some? ==> Contains(Lower(website.value), Lower(""))
  {
    if website.Some? {
      ContainsIffOccurs(Lower(website.value), Lower(""));
      assert OccursAt(Lower(website.value), Lower(""), 0);
    }
  }

  /** A mixed-case host matches a lower-case domain. */
  lemma MixedCaseHostMatches()
    ensures DomainMatches(Some("https://Example.COM"), "example.com")
  {
    var w := "https://Example.COM";
    assert OccursIgnoringCaseAt(w, "example.com", 8);
    DomainMatchesIff(Some(w), "example.com");
  }
}

=== FILE: engine.dfy ===
/** The extraction engine (`PlaceIDSorgula`): from the outcome of the fetch
    to a classified outcome. The JSON parser and the fetch are parameters:
    `parse` stands for `JSON.parse` (`None` when it throws), `fetch` for the
    shelled-out HTTP request (`Failure` when it throws). */
module Engine {
  import opened Wrappers
  import opened Text
  import opened JsonTree
  import opened Search
  import opened Locator

  type Parser = string -> Option<Json>
  type Fetcher = (string, string) -> Result<string, string>

  const StatusNotFound: nat := 0
  const StatusFound: nat := 1
  const StatusError: nat := 4

  const NoDataMessage: string := "Google Maps verisi bulunamadı (Regex eşleşmedi)"
  const ParseErrorMessage: string := "JSON parse hatası"
  const RequestFailedPrefix: string := "İstek başarısız: "

  const QueryPrefix: string := "https://www.google.com/maps/place/?q=place_id:"
  const QuerySuffix: string := "&hl=en"
  /** `'http://' + new URL(Baglanti).host`: the host of `QueryPrefix`. */
  const Referer: string := "http://www.google.com"

  /** `{ success, PlaceIDDurum, WebSitesi, error }` */
  datatype Outcome = Outcome(success: bool, status: nat, website: Option<string>, error: Option<string>)

  /** The invariant every outcome keeps: the status is 0, 1 or 4; a website
      is present exactly with status 1; failure is exactly status 4, carries
      an error message and never a website. */
  predicate WellFormed(o: Outcome) {
    && o.status in {StatusNotFound, StatusFound, StatusError}
    && (o.status == StatusFound <==> o.website.Some?)
    && (!o.success <==> o.status == StatusError)
    && (!o.success ==> o.website.None? && o.error.Some?)
    && (o.success ==> o.error.None?)
    && (o.website.Some? ==> IsAllowedUrl(o.website.value))
  }

  function Failed(message: string): (o: Outcome)
    ensures WellFormed(o) && !o.success
  {
    Outcome(false, StatusError, None, Some(message))
  }

  /** `PlaceIDDurum = WebSitesi ? 1 : 0` */
  function Classify(website: Option<string>): (o: Outcome)
    requires website.Some? ==> IsAllowedUrl(website.value)
    ensures WellFormed(o) && o.success && o.website == website
  {
    Outcome(true, if website.Some? then StatusFound else StatusNotFound, website, None)
  }

  /** The second chance taken when the search of the root found nothing and
      the root is an array: the string at `root[3][6]`, itself a JSON
      document (possibly behind the `)]}'` prefix), is parsed and searched.
      A missing, falsy or empty `root[3]` is the "lite" page and gives
      nothing; a failure of the inner parse gives nothing as well. */
  function Fallback(root: Json, parse: Parser): (r: Option<string>)
    ensures r.Some? ==> IsAllowedUrl(r.value)
  {
    if !root.Arr? then None
    else
      var third := Index(root, 3);
      if !TruthyOpt(third) || (third.value.Arr? && |third.value.items| == 0) then None
      else
        var sixth := Index(third.value, 6);
        if !TruthyOpt(sixth) || !sixth.value.Str? then None
        else
          var doc := sixth.value.s;
          var inner := if StartsWith(doc, XssiPrefix) then parse(Trim(ReplaceFirst(doc, XssiPrefix, ""))) else parse(doc);
          match inner
          case None => None
          case Some(tree) => FindWebsite(tree, 0)
  }

  /** Parsing, searching and classifying the located JSON text: a text the
      parser rejects is the status-4 parse error, and only such a text. */
  function Analyse(text: string, parse: Parser): (o: Outcome)
    ensures WellFormed(o)
    ensures parse(text).None? <==> !o.success
    ensures parse(text).None? ==> o == Failed(ParseErrorMessage)
  {
    match parse(text)
    case None => Failed(ParseErrorMessage)
    case Some(root) =>
      var primary := FindWebsite(root, 0);
      Classify(if primary.Some? then primary else Fallback(root, parse))
  }

  /** The body of `PlaceIDSorgula` after the fetch. */
  function Extract(fetched: Result<string, string>, parse: Parser): (o: Outcome)
    ensures WellFormed(o)
    ensures fetched.Failure? ==> o == Failed(RequestFailedPrefix + fetched.error)
  {
    match fetched
    case Failure(message) => Failed(RequestFailedPrefix + message)
    case Success(payload) =>
      match Locate(payload).JsonText(payload)
      case None => Failed(NoDataMessage)
      case Some(text) => Analyse(text, parse)
  }

  /** The address the place is fetched from, built from the trimmed id. */
  function QueryUrl(placeId: string): (url: string)
    ensures StartsWith(url, QueryPrefix) && EndsWith(url, QuerySuffix)
    ensures |url| == |QueryPrefix| + |Trim(placeId)| + |QuerySuffix|
    ensures url[|QueryPrefix|..|url| - |QuerySuffix|] == Trim(placeId)
  {
    ConcatParts(QueryPrefix, Trim(placeId), QuerySuffix);
    QueryPrefix + Trim(placeId) + QuerySuffix
  }

  /** Two place ids address the same URL exactly when their trims agree:
      surrounding whitespace is ignored, and nothing else is. */
  lemma QueryUrlSameIffSameTrim(a: string, b: string)
    ensures QueryUrl(a) == QueryUrl(b) <==> Trim(a) == Trim(b)
  {
    var ua, ub := QueryUrl(a), QueryUrl(b);
    if ua == ub {
      assert Trim(a) == ua[|QueryPrefix|..|ua| - |QuerySuffix|];
    }
  }

  /** `PlaceIDSorgula(placeId)` */
  function PlaceIdLookup(placeId: string, fetch: Fetcher, parse: Parser): (o: Outcome)
    ensures WellFormed(o)
  {
    Extract(fetch(QueryUrl(placeId), Referer), parse)
  }

  // ---------------------------------------------------------------------
  // Outcomes of the paths through the engine

  /** A prefixed payload is parsed from the trimmed text after its prefix,
      whatever HTML-like text it may contain. */
  lemma PrefixedPayloadIsParsedAfterPrefix(payload: string, parse: Parser)
    requires StartsWith(Trim(payload), XssiPrefix)
    ensures Extract(Success(payload), parse) == Analyse(Trim(TrimStart(payload)[|XssiPrefix|..]), parse)
  {
    LocatePrefixed(payload);
  }

  /** A prefixed payload whose text after the prefix does not parse is the
      status-4 parse error. */
  lemma PrefixedParseFailureIsError(payload: string, parse: Parser)
    requires StartsWith(Trim(payload), XssiPrefix)
    requires parse(Trim(TrimStart(payload)[|XssiPrefix|..])).None?
    ensures Extract(Success(payload), parse) == Failed(ParseErrorMessage)
  {
    PrefixedPayloadIsParsedAfterPrefix(payload, parse);
  }

  /** An HTML page in which no pattern matches is an error, status 4, with
      no website. */
  lemma NoPatternMatchIsError(payload: string, parse: Parser)
    requires !StartsWith(Trim(payload), XssiPrefix)
    requires forall i, p :: 0 <= i < |Patterns| ==> !MatchesAt(payload, Patterns[i], p)
    ensures Extract(Success(payload), parse) == Failed(NoDataMessage)
  {
    LocateMissingIffNoMatch(payload);
    assert Locate(payload).JsonText(payload) == None;
  }

  /** A bare JSON document without the prefix and without the marker is
      rejected before it is parsed, whatever the parser would make of it. */
  lemma UnprefixedDocumentIsRejected(payload: string, parse: Parser)
    requires !StartsWith(Trim(payload), XssiPrefix) && !Contains(payload, StateMarker)
    ensures Extract(Success(payload), parse).status == StatusError
    ensures Extract(Success(payload), parse).error == Some(NoDataMessage)
  {
    LocateWithoutMarker(payload);
  }

  /** When patterns matched but none offered a bracketed capture, the whole
      payload goes to the parser, and its failure is an error. */
  lemma UnacceptedPayloadIsParsedWhole(payload: string, parse: Parser)
    requires !StartsWith(Trim(payload), XssiPrefix)
    requires exists i :: 0 <= i < |Patterns| && Capture(payload, Patterns[i]).Some?
    requires forall i :: 0 <= i < |Patterns| ==> Candidate(payload, Patterns[i]).None?
    ensures Extract(Success(payload), parse) == Analyse(payload, parse)
    ensures parse(payload).None? ==> Extract(Success(payload), parse) == Failed(ParseErrorMessage)
  {
    LocateUnacceptedIff(payload);
  }

  /** An accepted capture is what the parser sees. */
  lemma EmbeddedCaptureIsParsed(payload: string, parse: Parser, i: nat)
    requires !StartsWith(Trim(payload), XssiPrefix)
    requires i < |Patterns| && Candidate(payload, Patterns[i]).Some?
    requires forall j :: 0 <= j < i ==> Candidate(payload, Patterns[j]).None?
    ensures Extract(Success(payload), parse) == Analyse(Candidate(payload, Patterns[i]).value, parse)
  {
    LocateEmbedded(payload);
    LocateEmbeddedFirst(payload);
    var k :| 0 <= k < |Patterns| && Candidate(payload, Patterns[k]) == Some(Locate(payload).text) &&
             forall j :: 0 <= j < k ==> Candidate(payload, Patterns[j]).None?;
    assert k == i;
  }

  /** An accepted capture the parser rejects is the status-4 parse error. */
  lemma EmbeddedParseFailureIsError(payload: string, parse: Parser, i: nat)
    requires !StartsWith(Trim(payload), XssiPrefix)
    requires i < |Patterns| && Candidate(payload, Patterns[i]).Some?
    requires forall j :: 0 <= j < i ==> Candidate(payload, Patterns[j]).None?
    requires parse(Candidate(payload, Patterns[i]).value).None?
    ensures Extract(Success(payload), parse) == Failed(ParseErrorMessage)
  {
    EmbeddedCaptureIsParsed(payload, parse, i);
  }

  /** Once the outer text parses, the lookup succeeds: only the fetch, the
      locator and the outer parse can produce status 4. In particular a
      failure of the inner parse in the fallback never does. */
  lemma ParsedTextNeverFails(text: string, parse: Parser)
    requires parse(text).Some?
    ensures Analyse(text, parse).success
    ensures Analyse(text, parse).status in {StatusNotFound, StatusFound}
  {
  }

  /** A website found by the primary search is reported as it is; the
      fallback is not consulted. */
  lemma PrimaryResultWins(text: string, parse: Parser)
    requires parse(text).Some? && FindWebsite(parse(text).value, 0).Some?
    ensures Analyse(text, parse) == Classify(FindWebsite(parse(text).value, 0))
    ensures Analyse(text, parse).status == StatusFound
  {
  }

  /** Without a primary result, a root that is not an array is "not
      found": the fallback applies to arrays only. */
  lemma NonArrayRootWithoutResultIsNotFound(text: string, parse: Parser)
    requires parse(text).Some? && !parse(text).value.Arr?
    ensures Analyse(text, parse) == Classify(None)
  {
  }

  /** The "lite" page: when `root[3]` is missing, falsy or an empty array,
      the outcome is status 0 with no website. */
  lemma LitePageIsNotFound(text: string, parse: Parser)
    requires parse(text).Some? && parse(text).value.Arr?
    requires FindWebsite(parse(text).value, 0).None?
    requires var third := Index(parse(text).value, 3);
             !TruthyOpt(third) || (third.value.Arr? && |third.value.items| == 0)
    ensures Analyse(text, parse).status == StatusNotFound && Analyse(text, parse).website.None?
  {
  }

  /** A prefixed inner document is parsed from the trimmed text after its
      prefix. */
  lemma FallbackStripsInnerPrefix(doc: string)
    requires StartsWith(doc, XssiPrefix)
    ensures Trim(ReplaceFirst(doc, XssiPrefix, "")) == Trim(doc[|XssiPrefix|..])
  {
    XssiPrefixShape();
    StripLeadingPrefix(doc, XssiPrefix);
  }

  /** The fallback: when the root is an array without a primary result and
      `root[3][6]` is a string whose (unprefixed) parse yields a tree, the
      outcome is the search of that tree; when that parse fails, it is
      status 0. */
  lemma FallbackSearchesInnerDocument(text: string, parse: Parser, doc: string)
    requires parse(text).Some? && parse(text).value.Arr?
    requires FindWebsite(parse(text).value, 0).None?
    requires var third := Index(parse(text).value, 3);
             TruthyOpt(third) && !(third.value.Arr? && |third.value.items| == 0) &&
             Index(third.value, 6) == Some(Str(doc)) && |doc| > 0
    ensures var inner := if StartsWith(doc, XssiPrefix) then parse(Trim(doc[|XssiPrefix|..])) else parse(doc);
            Analyse(text, parse) ==
              Classify(if inner.Some? then FindWebsite(inner.value, 0) else None)
  {
    if StartsWith(doc, XssiPrefix) {
      FallbackStripsInnerPrefix(doc);
    }
  }
}

=== FILE: json.dfy ===
/** The value `JSON.parse` produces, as a tagged union, together with the two
    JavaScript operations the engine applies to it without knowing its shape:
    truthiness (`if (x)`, `!x`) and indexing (`x[i]`). */
module JsonTree {
  import opened Wrappers

  /** A parsed JSON value. Object members keep their textual order; a
      duplicated key is resolved by `Member` the way `JSON.parse` does, the
      last occurrence winning. Numbers are the mathematical value of the
      double the parser produced. */
  datatype Json =
    | Null
    | Bool(b: bool)
    | Num(n: real)
    | Str(s: string)
    | Arr(items: seq<Json>)
    | Obj(members: seq<(string, Json)>)

  /** JavaScript truthiness of a JSON value: `null`, `false`, `0`, `-0` and
      `""` are falsy; every array and object, even an empty one, is truthy. */
  predicate Truthy(v: Json) {
    match v
    case Null => false
    case Bool(b) => b
    case Num(n) => n != 0.0
    case Str(s) => |s| > 0
    case Arr(_) => true
    case Obj(_) => true
  }

  /** Truthiness of a possibly `undefined` value. */
  predicate TruthyOpt(v: Option<Json>) {
    v.Some? && Truthy(v.value)
  }

  /** The decimal spelling of an index: the property key `x[i]` looks up on
      an object. It has no leading zero, except for `0` itself. */
  function DecimalKey(i: nat): (r: string)
    ensures |r| > 0 && IsDigits(r)
    ensures r[0] == '0' ==> i == 0
  {
    var d := ['0' + (i % 10) as char];
    if i < 10 then d else DecimalKey(i / 10) + d
  }

  predicate IsDigits(s: string) {
    forall k :: 0 <= k < |s| ==> '0' <= s[k] <= '9'
  }

  /** The number a string of decimal digits spells: the reading of a
      property key as an index. */
  function DigitsValue(s: string): nat
    requires IsDigits(s)
  {
    if s == [] then 0
    else DigitsValue(s[..|s| - 1]) * 10 + (s[|s| - 1] as int - '0' as int)
  }

  /** Reading the key back gives the index. */
  lemma {:induction false} DecimalKeyRoundTrip(i: nat)
    ensures DigitsValue(DecimalKey(i)) == i
  {
    var r := DecimalKey(i);
    if i >= 10 {
      DecimalKeyRoundTrip(i / 10);
      assert r[..|r| - 1] == DecimalKey(i / 10);
    }
  }

  /** Distinct indices name distinct object members. */
  lemma DecimalKeyInjective(i: nat, j: nat)
    ensures DecimalKey(i) == DecimalKey(j) <==> i == j
  {
    DecimalKeyRoundTrip(i);
    DecimalKeyRoundTrip(j);
  }

  /** The value of the last member named `key`, if any. */
  function LookupLast(members: seq<(string, Json)>, key: string): (r: Option<Json>)
    ensures r.Some? <==> exists k :: 0 <= k < |members| && members[k].0 == key
    ensures r.Some? ==> exists k :: 0 <= k < |members| && members[k] == (key, r.value) &&
                                    forall j :: k < j < |members| ==> members[j].0 != key
  {
    if members == [] then None
    else
      var last := members[|members| - 1];
      if last.0 == key then Some(last.1)
      else
        var r := LookupLast(members[..|members| - 1], key);
        LastIsNotKey(members, key, r);
        r
  }

  /** What holds of a lookup in all members but the last carries over to
      all members when the last is named otherwise. */
  lemma LastIsNotKey(members: seq<(string, Json)>, key: string, r: Option<Json>)
    requires members != [] && members[|members| - 1].0 != key
    requires var init := members[..|members| - 1];
             && (r.Some? <==> exists k :: 0 <= k < |init| && init[k].0 == key)
             && (r.Some? ==> exists k :: 0 <= k < |init| && init[k] == (key, r.value) &&
                                         forall j :: k < j < |init| ==> init[j].0 != key)
    ensures r.Some? <==> exists k :: 0 <= k < |members| && members[k].0 == key
    ensures r.Some? ==> exists k :: 0 <= k < |members| && members[k] == (key, r.value) &&
                                    forall j :: k < j < |members| ==> members[j].0 != key
  {
    var init := members[..|members| - 1];
    assert forall k :: 0 <= k < |init| ==> init[k] == members[k];
    if r.Some? {
      var k :| 0 <= k < |init| && init[k] == (key, r.value) && forall j :: k < j < |init| ==> init[j].0 != key;
      assert members[k] == (key, r.value);
    }
  }

  /** `v[i]` for a value already known to be truthy (so never `null`), with
      `None` standing for `undefined`: an array yields its element, a string
      the one-character string at that position, an object its member named
      by the decimal index, and a boolean or number has no such property. */
  function Index(v: Json, i: nat): (r: Option<Json>)
    ensures v.Arr? ==> (r.Some? <==> i < |v.items|)
    ensures v.Arr? && i < |v.items| ==> r == Some(v.items[i])
    ensures v.Str? && r.Some? ==> r.value.Str? && |r.value.s| == 1
    ensures v.Null? || v.Bool? || v.Num? ==> r.None?
  {
    match v
    case Arr(items) => if i < |items| then Some(items[i]) else None
    case Str(s) => if i < |s| then Some(Str([s[i]])) else None
    case Obj(members) => LookupLast(members, DecimalKey(i))
    case _ => None
  }
}

=== FILE: locator.dfy ===
/** The payload locator: finds the JSON text inside what the fetch returned.
    A payload whose trimmed text starts with the anti-hijacking prefix `)]}'`
    is JSON after that prefix. Otherwise the payload is an HTML page, and the
    text assigned to `window.APP_INITIALIZATION_STATE` is looked up with five
    regular expressions of the shape

        window\.APP_INITIALIZATION_STATE\s*=\s*(.*?);\s*<tail>

    tried in a fixed order. Each is modelled by a scanner (`MatchAt`,
    `FindMatch`) and by a declarative statement of what a match is
    (`IsMatch`); the lemmas show that the scanner finds the match the
    ECMAScript engine reports: the leftmost one, with the greedy `\s*` runs
    taken as long as possible and the lazy capture as short as possible. */
module Locator {
  import opened Wrappers
  import opened Text

  const XssiPrefix: string := ")]}'"
  const StateMarker: string := "window.APP_INITIALIZATION_STATE"

  /** The prefix neither starts nor ends with whitespace. */
  lemma XssiPrefixShape()
    ensures XssiPrefix != [] && !IsWhitespace(XssiPrefix[0]) && !IsWhitespace(XssiPrefix[|XssiPrefix| - 1])
  {
  }

  /** What follows the `;` that ends the capture: nothing at all (the last
      pattern, `(.*?);`), or optional whitespace, a literal, and possibly one
      further whitespace character (`var\s`). */
  datatype Tail = Bare | Then(literal: string, spaceAfter: bool)

  /** The five patterns, most specific first. */
  const Patterns: seq<Tail> := [
    Then("window.APP_FLAGS", false),
    Then("this.gbar_", false),
    Then("var", true),
    Then("window.", false),
    Bare
  ]

  /** A literal that cannot itself be taken for the whitespace before it. */
  predicate WellFormedTail(t: Tail) {
    t.Then? ==> t.literal != [] && !IsWhitespace(t.literal[0])
  }

  predicate WhitespaceBetween(s: string, i: int, j: int)
    requires 0 <= i <= j <= |s|
  {
    forall k :: i <= k < j ==> IsWhitespace(s[k])
  }

  predicate NoLineTerminatorBetween(s: string, i: int, j: int)
    requires 0 <= i <= j <= |s|
  {
    forall k :: i <= k < j ==> !IsLineTerminator(s[k])
  }

  // ---------------------------------------------------------------------
  // What a match is

  /** The tail's literal (and trailing whitespace character) at index `k`. */
  predicate LiteralAt(s: string, k: int, t: Tail)
    requires t.Then?
  {
    OccursAt(s, t.literal, k) && (t.spaceAfter ==> k + |t.literal| < |s| && IsWhitespace(s[k + |t.literal|]))
  }

  /** The part of the pattern after `;` matches from index `j` on. */
  ghost predicate TailMatches(s: string, j: int, t: Tail)
    requires 0 <= j <= |s|
  {
    t.Bare? || exists k :: j <= k <= |s| && WhitespaceBetween(s, j, k) && LiteralAt(s, k, t)
  }

  /** A match of the pattern with tail `t` that starts at `p`, has its `=`
      at `eq` and captures `s[cs..ce]`. */
  ghost predicate IsMatch(s: string, t: Tail, p: int, eq: int, cs: int, ce: int) {
    && 0 <= p && p + |StateMarker| <= eq < cs <= ce < |s|
    && OccursAt(s, StateMarker, p)
    && WhitespaceBetween(s, p + |StateMarker|, eq)
    && s[eq] == '='
    && WhitespaceBetween(s, eq + 1, cs)
    && NoLineTerminatorBetween(s, cs, ce)
    && s[ce] == ';'
    && TailMatches(s, ce + 1, t)
  }

  ghost predicate MatchesAt(s: string, t: Tail, p: int) {
    exists eq, cs, ce :: IsMatch(s, t, p, eq, cs, ce)
  }

  // ---------------------------------------------------------------------
  // The scanner

  /** The end of the run of whitespace that starts at `i`. */
  function SkipWhitespace(s: string, i: nat): (j: nat)
    requires i <= |s|
    decreases |s| - i
    ensures i <= j <= |s| && WhitespaceBetween(s, i, j)
    ensures j == |s| || !IsWhitespace(s[j])
  {
    if i < |s| && IsWhitespace(s[i]) then SkipWhitespace(s, i + 1) else i
  }

  /** The tail matches from `j`, decided by skipping the whole whitespace run:
      the literal does not start with whitespace, so no shorter run works. */
  predicate TailMatchesFrom(s: string, j: nat, t: Tail)
    requires j <= |s|
  {
    t.Bare? || LiteralAt(s, SkipWhitespace(s, j), t)
  }

  /** A `;` at `e` followed by the tail ends a capture. */
  predicate ClosesCapture(s: string, e: int, t: Tail)
    requires 0 <= e < |s|
  {
    s[e] == ';' && TailMatchesFrom(s, e + 1, t)
  }

  /** The lazy capture that starts at `i`: the first `;` followed by the
      tail, provided no line terminator comes before it. */
  function CaptureEnd(s: string, i: nat, t: Tail): (r: Option<nat>)
    requires i <= |s|
    decreases |s| - i
    ensures r.Some? ==> i <= r.value < |s| && ClosesCapture(s, r.value, t) && NoLineTerminatorBetween(s, i, r.value)
    ensures r.Some? ==> forall e :: i <= e < r.value ==> !ClosesCapture(s, e, t)
    ensures r.None? ==> forall e :: i <= e < |s| && NoLineTerminatorBetween(s, i, e) ==> !ClosesCapture(s, e, t)
  {
    if i == |s| then None
    else if ClosesCapture(s, i, t) then Some(i)
    else if IsLineTerminator(s[i]) then None
    else CaptureEnd(s, i + 1, t)
  }

  /** The match at start index `p`, as (capture start, capture end). */
  function MatchAt(s: string, p: nat, t: Tail): Option<(nat, nat)>
    requires p <= |s|
  {
    if !OccursAt(s, StateMarker, p) then None
    else
      var eq := SkipWhitespace(s, p + |StateMarker|);
      if eq == |s| || s[eq] != '=' then None
      else
        var cs := SkipWhitespace(s, eq + 1);
        match CaptureEnd(s, cs, t)
        case None => None
        case Some(ce) => Some((cs, ce))
  }

  /** The leftmost start index at or after `p` where the pattern matches. */
  function FindMatch(s: string, p: nat, t: Tail): (r: Option<(nat, nat, nat)>)
    requires p <= |s|
    decreases |s| - p
    ensures r.Some? ==> p <= r.value.0 <= |s| && MatchAt(s, r.value.0, t) == Some((r.value.1, r.value.2))
    ensures r.Some? ==> forall q :: p <= q < r.value.0 ==> MatchAt(s, q, t).None?
    ensures r.None? ==> forall q :: p <= q <= |s| ==> MatchAt(s, q, t).None?
  {
    var m := MatchAt(s, p, t);
    if m.Some? then Some((p, m.value.0, m.value.1))
    else if p == |s| then None
    else FindMatch(s, p + 1, t)
  }

  /** `payload.match(pattern)[1]`, or `None` when the match is `null`. */
  function Capture(s: string, t: Tail): Option<string> {
    match FindMatch(s, 0, t)
    case None => None
    case Some((_, cs, ce)) => if cs <= ce <= |s| then Some(s[cs..ce]) else None
  }

  // ---------------------------------------------------------------------
  // The scanner agrees with the match semantics

  lemma TailMatchesFromIff(s: string, j: nat, t: Tail)
    requires j <= |s| && WellFormedTail(t)
    ensures TailMatchesFrom(s, j, t) <==> TailMatches(s, j, t)
  {
    if t.Then? && TailMatches(s, j, t) {
      var k := SkipWhitespace(s, j);
      var k' :| j <= k' <= |s| && WhitespaceBetween(s, j, k') && LiteralAt(s, k', t);
      assert s[k'] == s[k'..k' + |t.literal|][0];
      assert k' == k;
    }
  }

  /** Every match the scanner reports is a match. */
  lemma MatchAtSound(s: string, p: nat, t: Tail)
    requires p <= |s| && WellFormedTail(t) && MatchAt(s, p, t).Some?
    ensures IsMatch(s, t, p, SkipWhitespace(s, p + |StateMarker|), MatchAt(s, p, t).value.0, MatchAt(s, p, t).value.1)
  {
    var ce := MatchAt(s, p, t).value.1;
    TailMatchesFromIff(s, ce + 1, t);
  }

  /** A whitespace run followed by a character outside it ends where the
      scanner's run ends. */
  lemma RunEnd(s: string, i: nat, j: int)
    requires i <= j < |s| && WhitespaceBetween(s, i, j) && !IsWhitespace(s[j])
    ensures SkipWhitespace(s, i) == j
  {
  }

  /** A whitespace run is never longer than the scanner's run. */
  lemma RunWithin(s: string, i: nat, j: int)
    requires i <= j <= |s| && WhitespaceBetween(s, i, j)
    ensures j <= SkipWhitespace(s, i)
  {
  }

  /** A capture end reachable from `cs` bounds the lazy capture's end. */
  lemma CaptureEndAtMost(s: string, cs: nat, ce: int, t: Tail)
    requires cs <= ce < |s| && NoLineTerminatorBetween(s, cs, ce) && ClosesCapture(s, ce, t)
    ensures CaptureEnd(s, cs, t).Some? && CaptureEnd(s, cs, t).value <= ce
  {
  }

  /** Every match at `p` is seen by the scanner, which reports the one the
      regular expression engine prefers: the greedy whitespace before the
      capture as long as possible, then the lazy capture as short as
      possible. */
  lemma MatchAtComplete(s: string, t: Tail, p: int, eq: int, cs: int, ce: int)
    requires WellFormedTail(t) && IsMatch(s, t, p, eq, cs, ce)
    ensures 0 <= p <= |s| && MatchAt(s, p, t).Some?
    ensures eq == SkipWhitespace(s, p + |StateMarker|)
    ensures cs <= MatchAt(s, p, t).value.0
    ensures cs == MatchAt(s, p, t).value.0 ==> MatchAt(s, p, t).value.1 <= ce
  {
    RunEnd(s, p + |StateMarker|, eq);
    var cs' := SkipWhitespace(s, eq + 1);
    CaptureStartBounds(s, eq, cs, ce);
    MatchClosesCapture(s, t, ce);
    LaterCaptureStart(s, cs, cs', ce);
    CaptureEndAtMost(s, cs', ce, t);
    MatchAtAssignment(s, p, t);
  }

  /** The `;` of a match closes a capture in the scanner's sense. */
  lemma MatchClosesCapture(s: string, t: Tail, ce: int)
    requires WellFormedTail(t) && 0 <= ce < |s| && s[ce] == ';' && TailMatches(s, ce + 1, t)
    ensures ClosesCapture(s, ce, t)
  {
    TailMatchesFromIff(s, ce + 1, t);
  }

  /** Starting the capture later keeps it free of line terminators. */
  lemma LaterCaptureStart(s: string, cs: int, cs': int, ce: int)
    requires 0 <= cs <= cs' <= ce <= |s| && NoLineTerminatorBetween(s, cs, ce)
    ensures NoLineTerminatorBetween(s, cs', ce)
  {
  }

  /** The greedy run after `=` takes in every whitespace run a match has
      there, and stops before the `;` that ends the capture. */
  lemma CaptureStartBounds(s: string, eq: nat, cs: int, ce: int)
    requires eq < cs <= ce < |s| && WhitespaceBetween(s, eq + 1, cs) && s[ce] == ';'
    ensures cs <= SkipWhitespace(s, eq + 1) <= ce
  {
    RunWithin(s, eq + 1, cs);
  }

  /** The scanner's match at a marker followed by `=`. */
  lemma MatchAtAssignment(s: string, p: nat, t: Tail)
    requires OccursAt(s, StateMarker, p)
    requires SkipWhitespace(s, p + |StateMarker|) < |s| && s[SkipWhitespace(s, p + |StateMarker|)] == '='
    requires CaptureEnd(s, SkipWhitespace(s, SkipWhitespace(s, p + |StateMarker|) + 1), t).Some?
    ensures MatchAt(s, p, t) == Some((SkipWhitespace(s, SkipWhitespace(s, p + |StateMarker|) + 1),
                                      CaptureEnd(s, SkipWhitespace(s, SkipWhitespace(s, p + |StateMarker|) + 1), t).value))
  {
  }

  /** A pattern has a match somewhere exactly when `match` does not return
      `null`, and the capture it returns comes from a match. */
  lemma CaptureIffMatch(s: string, t: Tail)
    requires WellFormedTail(t)
    ensures Capture(s, t).Some? <==> exists p :: MatchesAt(s, t, p)
    ensures Capture(s, t).Some? ==> exists p, eq, cs, ce :: IsMatch(s, t, p, eq, cs, ce) && Capture(s, t).value == s[cs..ce]
  {
    var r := FindMatch(s, 0, t);
    if r.Some? {
      var (p, cs, ce) := r.value;
      MatchAtSound(s, p, t);
      var eq := SkipWhitespace(s, p + |StateMarker|);
      assert IsMatch(s, t, p, eq, cs, ce);
      assert MatchesAt(s, t, p);
    } else {
      forall p, eq, cs, ce | IsMatch(s, t, p, eq, cs, ce)
        ensures false
      {
        MatchAtComplete(s, t, p, eq, cs, ce);
      }
    }
  }

  /** The capture comes from the leftmost start index that has any match. */
  lemma CaptureIsLeftmost(s: string, t: Tail, q: nat)
    requires WellFormedTail(t) && FindMatch(s, 0, t).Some? && q < FindMatch(s, 0, t).value.0
    ensures !MatchesAt(s, t, q)
  {
    forall eq, cs, ce | IsMatch(s, t, q, eq, cs, ce)
      ensures false
    {
      MatchAtComplete(s, t, q, eq, cs, ce);
    }
  }

  /** Any pattern that matches makes the last, bare pattern match too. */
  lemma AnyMatchImpliesBareMatch(s: string, t: Tail)
    requires WellFormedTail(t) && Capture(s, t).Some?
    ensures Capture(s, Bare).Some?
  {
    var (p, cs, ce) := FindMatch(s, 0, t).value;
    MatchAtSound(s, p, t);
    var eq := SkipWhitespace(s, p + |StateMarker|);
    assert IsMatch(s, Bare, p, eq, cs, ce);
    MatchAtComplete(s, Bare, p, eq, cs, ce);
  }

  /** Without the marker text no pattern matches. */
  lemma NoMarkerNoCapture(s: string, t: Tail)
    requires !Contains(s, StateMarker) && WellFormedTail(t)
    ensures Capture(s, t).None?
  {
    ContainsIffOccurs(s, StateMarker);
    assert forall p, eq, cs, ce :: !IsMatch(s, t, p, eq, cs, ce);
    CaptureIffMatch(s, t);
  }

  // ---------------------------------------------------------------------
  // Trying the patterns in order

  /** `candidate.startsWith('[') && candidate.endsWith(']')` */
  predicate IsBracketed(c: string) {
    StartsWith(c, "[") && EndsWith(c, "]")
  }

  /** Whether the loop body accepts a pattern's result: `match && match[1]`
      holds (a non-empty capture) and the trimmed capture is bracketed. */
  predicate Accepts(m: Option<string>) {
    m.Some? && |m.value| > 0 && IsBracketed(Trim(m.value))
  }

  /** The JSON text a pattern's result offers: the trimmed capture, when
      accepted. */
  function CandidateOf(m: Option<string>): (r: Option<string>)
    ensures r.Some? <==> Accepts(m)
    ensures r.Some? ==> IsBracketed(r.value) && r.value == Trim(m.value)
  {
    if Accepts(m) then Some(Trim(m.value)) else None
  }

  /** An offered text is unchanged by a further trim. */
  lemma CandidateIsOwnTrim(m: Option<string>)
    requires CandidateOf(m).Some?
    ensures Trim(CandidateOf(m).value) == CandidateOf(m).value
  {
    BracketedIsTrimmed(CandidateOf(m).value);
  }

  /** An offered text is a slice of the capture with only whitespace cut
      from either end. */
  lemma CandidateIsSliceOfCapture(m: Option<string>)
    requires CandidateOf(m).Some?
    ensures exists a, b :: 0 <= a <= b <= |m.value| && CandidateOf(m).value == m.value[a..b] &&
                           AllWhitespace(m.value[..a]) && AllWhitespace(m.value[b..])
  {
  }

  /** The JSON text pattern `t` offers on page `s`. */
  function Candidate(s: string, t: Tail): Option<string> {
    CandidateOf(Capture(s, t))
  }

  /** The result of `payload.match` for each pattern in turn. Matching has
      no side effects, so computing every result up front leaves the loop's
      outcome unchanged. */
  function Captures(s: string, pats: seq<Tail>): (ms: seq<Option<string>>)
    ensures |ms| == |pats|
  {
    seq(|pats|, i requires 0 <= i < |pats| => Capture(s, pats[i]))
  }

  /** The state the pattern loop ends in: a candidate was accepted (and the
      loop broke), or every pattern was tried and the variable `match` holds
      whatever the last one returned. */
  datatype Scan = Accepted(text: string) | Exhausted(lastMatched: bool)

  /** The loop over the patterns' results `ms`, entered with `match`
      non-null or not. */
  function ScanCaptures(ms: seq<Option<string>>, lastMatched: bool): (r: Scan)
    decreases |ms|
    ensures r.Accepted? ==> IsBracketed(r.text)
  {
    if ms == [] then Exhausted(lastMatched)
    else if Accepts(ms[0]) then Accepted(Trim(ms[0].value))
    else ScanCaptures(ms[1..], ms[0].Some?)
  }

  /** The loop accepts something exactly when some result offers a
      candidate. */
  lemma {:induction false} ScanAcceptsIffSomeCandidate(ms: seq<Option<string>>, lastMatched: bool)
    ensures ScanCaptures(ms, lastMatched).Accepted? <==> exists i :: 0 <= i < |ms| && Accepts(ms[i])
    decreases |ms|
  {
    if ms != [] && !Accepts(ms[0]) {
      ScanAcceptsIffSomeCandidate(ms[1..], ms[0].Some?);
      if exists i :: 0 <= i < |ms| && Accepts(ms[i]) {
        var i :| 0 <= i < |ms| && Accepts(ms[i]);
        assert ms[1..][i - 1] == ms[i];
      }
    }
  }

  /** What the loop accepts is the candidate of the first result that
      offers one. */
  lemma {:induction false} ScanAcceptsFirstCandidate(ms: seq<Option<string>>, lastMatched: bool)
    requires ScanCaptures(ms, lastMatched).Accepted?
    ensures exists i :: 0 <= i < |ms| && CandidateOf(ms[i]) == Some(ScanCaptures(ms, lastMatched).text) &&
                        forall j :: 0 <= j < i ==> !Accepts(ms[j])
    decreases |ms|
  {
    var text := ScanCaptures(ms, lastMatched).text;
    if Accepts(ms[0]) {
      assert CandidateOf(ms[0]) == Some(text);
    } else {
      var rest := ms[1..];
      assert ScanCaptures(ms, lastMatched) == ScanCaptures(rest, ms[0].Some?);
      ScanAcceptsFirstCandidate(rest, ms[0].Some?);
      var i :| 0 <= i < |rest| && CandidateOf(rest[i]) == Some(text) && forall j :: 0 <= j < i ==> !Accepts(rest[j]);
      ShiftFirstAccepted(ms, i);
    }
  }

  /** The first accepted index of `ms[1..]`, shifted by one, is the first
      of `ms` when `ms[0]` is not accepted. */
  lemma ShiftFirstAccepted(ms: seq<Option<string>>, i: nat)
    requires i + 1 < |ms| && !Accepts(ms[0]) && forall j :: 0 <= j < i ==> !Accepts(ms[1..][j])
    ensures ms[i + 1] == ms[1..][i]
    ensures forall j :: 0 <= j < i + 1 ==> !Accepts(ms[j])
  {
    forall j | 0 < j < i + 1
      ensures !Accepts(ms[j])
    {
      assert ms[j] == ms[1..][j - 1];
    }
  }

  /** A loop that accepts nothing ends holding the last pattern's result. */
  lemma {:induction false} ScanExhaustedKeepsLastMatch(ms: seq<Option<string>>, lastMatched: bool)
    requires ScanCaptures(ms, lastMatched).Exhausted?
    ensures ScanCaptures(ms, lastMatched).lastMatched == if ms == [] then lastMatched else ms[|ms| - 1].Some?
    decreases |ms|
  {
    if ms != [] {
      assert ScanCaptures(ms, lastMatched) == ScanCaptures(ms[1..], ms[0].Some?);
      ScanExhaustedKeepsLastMatch(ms[1..], ms[0].Some?);
      if |ms| > 1 {
        assert ms[1..][|ms[1..]| - 1] == ms[|ms| - 1];
      }
    }
  }

  lemma PatternsWellFormed()
    ensures forall i :: 0 <= i < |Patterns| ==> WellFormedTail(Patterns[i])
  {
  }

  /** With the fixed pattern list, the loop ends with a null `match` exactly
      when no pattern matched at all: the last pattern matches whenever any
      other does. */
  lemma ExhaustedWithoutMatchIffNoPatternMatched(s: string)
    requires ScanCaptures(Captures(s, Patterns), false).Exhausted?
    ensures !ScanCaptures(Captures(s, Patterns), false).lastMatched <==>
      forall i :: 0 <= i < |Patterns| ==> Capture(s, Patterns[i]).None?
  {
    var ms := Captures(s, Patterns);
    ScanExhaustedKeepsLastMatch(ms, false);
    PatternsWellFormed();
    forall i | 0 <= i < |Patterns| && Capture(s, Patterns[i]).Some?
      ensures Capture(s, Bare).Some?
    {
      AnyMatchImpliesBareMatch(s, Patterns[i]);
    }
    assert ms[|ms| - 1] == Capture(s, Bare);
  }

  // ---------------------------------------------------------------------
  // The locator

  /** Where the JSON text was found:
      - `Prefixed`: the payload is JSON behind the `)]}'` prefix;
      - `Embedded`: a pattern's capture was accepted;
      - `Unaccepted`: some pattern matched but no capture was accepted, and
        the whole payload is handed to the parser;
      - `Missing`: no pattern matched; the lookup ends in an error. */
  datatype Located = Prefixed(text: string) | Embedded(text: string) | Unaccepted | Missing {
    /** `mainJsonString`: the text handed to the JSON parser. */
    function JsonText(payload: string): Option<string> {
      match this
      case Prefixed(text) => Some(text)
      case Embedded(text) => Some(text)
      case Unaccepted => Some(payload)
      case Missing => None
    }
  }

  /** The payload locator. */
  function Locate(payload: string): (r: Located)
    ensures r.Embedded? ==> IsBracketed(r.text)
  {
    if StartsWith(Trim(payload), XssiPrefix) then
      Prefixed(Trim(ReplaceFirst(payload, XssiPrefix, "")))
    else
      match ScanCaptures(Captures(payload, Patterns), false)
      case Accepted(text) => Embedded(text)
      case Exhausted(matched) => if matched then Unaccepted else Missing
  }

  /** A prefixed payload is the trimmed text after its leading `)]}'`; no
      pattern is consulted. */
  lemma LocatePrefixed(payload: string)
    requires StartsWith(Trim(payload), XssiPrefix)
    ensures StartsWith(TrimStart(payload), XssiPrefix)
    ensures Locate(payload) == Prefixed(Trim(TrimStart(payload)[|XssiPrefix|..]))
  {
    StripTrimmedPrefix(payload, XssiPrefix);
  }

  /** An HTML payload yields a candidate when some pattern offers one ... */
  lemma LocateEmbedded(payload: string)
    requires !StartsWith(Trim(payload), XssiPrefix)
    ensures Locate(payload).Embedded? <==> exists i :: 0 <= i < |Patterns| && Candidate(payload, Patterns[i]).Some?
  {
    var ms := Captures(payload, Patterns);
    ScanAcceptsIffSomeCandidate(ms, false);
    if exists i :: 0 <= i < |Patterns| && Candidate(payload, Patterns[i]).Some? {
      var i :| 0 <= i < |Patterns| && Candidate(payload, Patterns[i]).Some?;
      assert Accepts(ms[i]);
    }
  }

  /** ... and that candidate comes from the first pattern, in the fixed
      order, that offers one. */
  lemma LocateEmbeddedFirst(payload: string)
    requires !StartsWith(Trim(payload), XssiPrefix) && Locate(payload).Embedded?
    ensures exists i :: 0 <= i < |Patterns| && Candidate(payload, Patterns[i]) == Some(Locate(payload).text) &&
                        forall j :: 0 <= j < i ==> Candidate(payload, Patterns[j]).None?
  {
    var ms := Captures(payload, Patterns);
    var text := Locate(payload).text;
    EmbeddedIsAccepted(payload);
    ScanAcceptsFirstCandidate(ms, false);
    var i :| 0 <= i < |ms| && CandidateOf(ms[i]) == Some(text) && forall j :: 0 <= j < i ==> !Accepts(ms[j]);
    FirstCandidateOfPage(payload, ms, i);
  }

  /** An embedded text is the one the pattern loop accepted. */
  lemma EmbeddedIsAccepted(payload: string)
    requires !StartsWith(Trim(payload), XssiPrefix) && Locate(payload).Embedded?
    ensures ScanCaptures(Captures(payload, Patterns), false) == Accepted(Locate(payload).text)
  {
  }

  /** Reading the first accepted result back as candidates of the page. */
  lemma FirstCandidateOfPage(payload: string, ms: seq<Option<string>>, i: nat)
    requires ms == Captures(payload, Patterns) && i < |ms|
    requires forall j :: 0 <= j < i ==> !Accepts(ms[j])
    ensures Candidate(payload, Patterns[i]) == CandidateOf(ms[i])
    ensures forall j :: 0 <= j < i ==> Candidate(payload, Patterns[j]).None?
  {
    forall j | 0 <= j < i
      ensures Candidate(payload, Patterns[j]).None?
    {
      assert !Accepts(ms[j]);
    }
  }

  /** An HTML payload is `Missing` exactly when no pattern has a match
      anywhere in it. */
  lemma LocateMissingIffNoMatch(payload: string)
    requires !StartsWith(Trim(payload), XssiPrefix)
    ensures Locate(payload).Missing? <==>
      forall i, p :: 0 <= i < |Patterns| ==> !MatchesAt(payload, Patterns[i], p)
  {
    NoCaptureIffNoMatch(payload);
    LocateMissingIffNoCapture(payload);
  }

  /** No pattern returns a match exactly when no pattern matches anywhere. */
  lemma NoCaptureIffNoMatch(payload: string)
    ensures (forall i :: 0 <= i < |Patterns| ==> Capture(payload, Patterns[i]).None?) <==>
            forall i, p :: 0 <= i < |Patterns| ==> !MatchesAt(payload, Patterns[i], p)
  {
    PatternsWellFormed();
    forall i | 0 <= i < |Patterns|
      ensures Capture(payload, Patterns[i]).Some? <==> exists p :: MatchesAt(payload, Patterns[i], p)
    {
      CaptureIffMatch(payload, Patterns[i]);
    }
  }

  /** An HTML payload is `Missing` exactly when every pattern's `match`
      returns `null`. */
  lemma LocateMissingIffNoCapture(payload: string)
    requires !StartsWith(Trim(payload), XssiPrefix)
    ensures Locate(payload).Missing? <==> forall i :: 0 <= i < |Patterns| ==> Capture(payload, Patterns[i]).None?
  {
    var ms := Captures(payload, Patterns);
    if ScanCaptures(ms, false).Exhausted? {
      ExhaustedWithoutMatchIffNoPatternMatched(payload);
    } else {
      ScanAcceptsIffSomeCandidate(ms, false);
      var i :| 0 <= i < |ms| && Accepts(ms[i]);
      assert Capture(payload, Patterns[i]).Some?;
    }
  }

  /** An HTML payload is `Unaccepted` exactly when some pattern matched but
      none offered a candidate. */
  lemma LocateUnacceptedIff(payload: string)
    requires !StartsWith(Trim(payload), XssiPrefix)
    ensures Locate(payload).Unaccepted? <==>
      (exists i :: 0 <= i < |Patterns| && Capture(payload, Patterns[i]).Some?) &&
      (forall i :: 0 <= i < |Patterns| ==> Candidate(payload, Patterns[i]).None?)
  {
    var ms := Captures(payload, Patterns);
    ScanAcceptsIffSomeCandidate(ms, false);
    assert forall i :: 0 <= i < |Patterns| ==> Candidate(payload, Patterns[i]) == CandidateOf(ms[i]);
    if ScanCaptures(ms, false).Exhausted? {
      ExhaustedWithoutMatchIffNoPatternMatched(payload);
    }
  }

  /** A payload that is neither prefixed nor contains the state marker, such
      as a bare JSON document, is `Missing`: it never reaches the parser. */
  lemma LocateWithoutMarker(payload: string)
    requires !StartsWith(Trim(payload), XssiPrefix) && !Contains(payload, StateMarker)
    ensures Locate(payload) == Missing
  {
    PatternsWellFormed();
    forall i | 0 <= i < |Patterns|
      ensures Capture(payload, Patterns[i]).None?
    {
      NoMarkerNoCapture(payload, Patterns[i]);
    }
    var ms := Captures(payload, Patterns);
    ScanAcceptsIffSomeCandidate(ms, false);
    ScanExhaustedKeepsLastMatch(ms, false);
  }

  // ---------------------------------------------------------------------
  // Embedding and locating again

  /** No line terminator in `s[i..j]`, and no `;` there that is followed
      by the tail `t`: a `;` elsewhere in the text stays in the capture. */
  predicate PlainBetween(s: string, i: int, j: int, t: Tail)
    requires 0 <= i <= j <= |s|
  {
    && NoLineTerminatorBetween(s, i, j)
    && forall k :: i <= k < j ==> !ClosesCapture(s, k, t)
  }

  /** A stretch that nowhere closes the capture is passed over by the lazy
      capture. */
  lemma {:induction false} CaptureEndSkips(s: string, i: nat, j: nat, t: Tail)
    requires i <= j <= |s| && PlainBetween(s, i, j, t)
    ensures CaptureEnd(s, i, t) == CaptureEnd(s, j, t)
    decreases j - i
  {
    if i < j {
      assert !ClosesCapture(s, i, t) && !IsLineTerminator(s[i]);
      assert CaptureEnd(s, i, t) == CaptureEnd(s, i + 1, t);
      CaptureEndSkips(s, i + 1, j, t);
    }
  }

  /** Start indices without a match are passed over by the search. */
  lemma {:induction false} FindMatchSkips(s: string, i: nat, p: nat, t: Tail)
    requires i <= p <= |s|
    requires forall q :: i <= q < p ==> MatchAt(s, q, t).None?
    ensures FindMatch(s, i, t) == FindMatch(s, p, t)
    decreases p - i
  {
    if i < p {
      assert MatchAt(s, i, t).None?;
      assert FindMatch(s, i, t) == FindMatch(s, i + 1, t);
      FindMatchSkips(s, i + 1, p, t);
    }
  }

  /** An assignment `marker = text;literal` at `p`, with `text` starting
      with no whitespace, holding no line break and no earlier `;` followed
      by the literal, is matched at `p` by a pattern whose tail is that
      literal, capturing `text`. */
  lemma AssignmentMatchesAt(s: string, p: nat, ce: nat, t: Tail)
    requires WellFormedTail(t) && t.Then? && !t.spaceAfter
    requires OccursAt(s, StateMarker, p)
    requires p + |StateMarker| + 3 < ce < |s|
    requires s[p + |StateMarker|] == ' ' && s[p + |StateMarker| + 1] == '=' && s[p + |StateMarker| + 2] == ' '
    requires !IsWhitespace(s[p + |StateMarker| + 3]) && PlainBetween(s, p + |StateMarker| + 3, ce, t)
    requires s[ce] == ';' && OccursAt(s, t.literal, ce + 1)
    ensures MatchAt(s, p, t) == Some((p + |StateMarker| + 3, ce))
  {
    var m := p + |StateMarker|;
    var eq := m + 1;
    var cs := m + 3;
    RunEnd(s, m, eq);
    RunEnd(s, eq + 1, cs);
    CaptureEndSkips(s, cs, ce, t);
    assert s[ce + 1] == s[ce + 1..ce + 1 + |t.literal|][0];
    RunEnd(s, ce + 1, ce + 1);
    assert ClosesCapture(s, ce, t);
    assert CaptureEnd(s, ce, t) == Some(ce);
  }

  /** The match at the marker's first occurrence is the one captured. */
  lemma FirstMarkerMatchIsCaptured(s: string, p: nat, cs: nat, ce: nat, t: Tail)
    requires IndexOf(s, StateMarker) == Some(p) && p <= |s|
    requires MatchAt(s, p, t) == Some((cs, ce))
    ensures Capture(s, t) == Some(s[cs..ce])
  {
    forall q | 0 <= q < p
      ensures MatchAt(s, q, t).None?
    {
      assert !OccursAt(s, StateMarker, q);
    }
    FindMatchSkips(s, 0, p, t);
    assert FindMatch(s, p, t) == Some((p, cs, ce));
  }

  /** A bracketed text starts and ends with no whitespace, so trimming
      keeps it as it is. */
  lemma BracketedIsTrimmed(c: string)
    requires IsBracketed(c)
    ensures c != [] && !IsWhitespace(c[0]) && Trim(c) == c
  {
    assert c[0] == '[' && c[|c| - 1] == ']';
    TrimStartOfTrimmed(c);
    TrimEndOfTrimmed(c);
  }

  /** A page whose first pattern captures a bracketed text locates to that
      text. */
  lemma LocateFirstPatternCapture(s: string, c: string)
    requires !StartsWith(Trim(s), XssiPrefix)
    requires Capture(s, Patterns[0]) == Some(c) && IsBracketed(c)
    ensures Locate(s) == Embedded(c)
  {
    BracketedIsTrimmed(c);
    var ms := Captures(s, Patterns);
    assert ms[0] == Some(c) && Accepts(ms[0]);
  }

  /** A page that assigns `state` to the marker, followed by the app flags. */
  function EmbedState(before: string, state: string, after: string): string {
    before + StateMarker + " = " + state + ";window.APP_FLAGS" + after
  }

  lemma Middle(a: string, b: string, c: string)
    ensures (a + b + c)[|a|..|a| + |b|] == b
  {
    assert (a + b + c)[|a|..|a| + |b|] == (a + b)[|a|..];
  }

  /** Where the pieces of an embedding sit. */
  lemma EmbedStateShape(before: string, state: string, after: string)
    ensures var s := EmbedState(before, state, after);
            var p := |before|;
            var cs := p + |StateMarker| + 3;
            var ce := cs + |state|;
            && ce + 1 + |"window.APP_FLAGS"| <= |s|
            && OccursAt(s, StateMarker, p)
            && s[p + |StateMarker|] == ' ' && s[p + |StateMarker| + 1] == '=' && s[p + |StateMarker| + 2] == ' '
            && s[cs..ce] == state
            && s[ce] == ';'
            && OccursAt(s, "window.APP_FLAGS", ce + 1)
  {
    var s := EmbedState(before, state, after);
    var head := before + StateMarker + " = " + state;
    assert s == head + ";" + "window.APP_FLAGS" + after;
    Middle(head + ";", "window.APP_FLAGS", after);
    Middle(before, StateMarker, " = " + state + ";window.APP_FLAGS" + after);
    assert s == before + StateMarker + " = " + state + (";window.APP_FLAGS" + after);
    Middle(before + StateMarker + " = ", state, ";window.APP_FLAGS" + after);
  }

  /** A literal without `]`. */
  predicate NoClosingBracket(lit: string) {
    forall i :: 0 <= i < |lit| ==> lit[i] != ']'
  }

  /** The first pattern's tail: the literal `window.APP_FLAGS`, which has
      no `]`. */
  lemma FirstPatternShape()
    ensures WellFormedTail(Patterns[0]) && Patterns[0].Then? && !Patterns[0].spaceAfter
    ensures NoClosingBracket(Patterns[0].literal)
  {
    PatternsWellFormed();
  }

  /** An occurrence inside `s[i..j]` is an occurrence in the slice. */
  lemma OccursInSlice(s: string, i: nat, j: nat, e: nat, lit: string)
    requires i <= e && e + |lit| <= j <= |s| && OccursAt(s, lit, e)
    ensures OccursAt(s[i..j], lit, e - i)
  {
    var c, d := s[i..j][e - i..e - i + |lit|], s[e..e + |lit|];
    assert forall x :: 0 <= x < |lit| ==> c[x] == d[x];
    assert c == d;
  }

  /** A whitespace run that ends inside `s[i..j]` ends at the same place
      in the slice. */
  lemma RunInSlice(s: string, i: nat, j: nat, a: nat, e: nat)
    requires i <= a <= e < j <= |s| && WhitespaceBetween(s, a, e) && !IsWhitespace(s[e])
    ensures SkipWhitespace(s[i..j], a - i) == e - i
  {
    var c := s[i..j];
    assert forall x :: a - i <= x < e - i ==> c[x] == s[x + i];
    RunEnd(c, a - i, e - i);
  }

  /** A `;` inside a bracketed stretch that is followed by a literal
      without `]` is followed by it within the stretch. */
  lemma ClosesInsideBracketed(s: string, i: nat, j: nat, k: nat, t: Tail)
    requires i <= k < j <= |s| && IsBracketed(s[i..j])
    requires t.Then? && !t.spaceAfter && NoClosingBracket(t.literal)
    requires ClosesCapture(s, k, t)
    ensures ClosesCapture(s[i..j], k - i, t)
  {
    assert s[j - 1] == s[i..j][j - 1 - i] == ']';
    var e := SkipWhitespace(s, k + 1);
    assert e <= j - 1;
    assert e + |t.literal| <= j - 1;
    RunInSlice(s, i, j, k + 1, e);
    OccursInSlice(s, i, j, e, t.literal);
  }

  /** The stretch condition on a bracketed text carries over to the text
      it is embedded in. */
  lemma PlainSlice(s: string, i: nat, j: nat, t: Tail)
    requires i <= j <= |s| && IsBracketed(s[i..j])
    requires t.Then? && !t.spaceAfter && NoClosingBracket(t.literal)
    requires PlainBetween(s[i..j], 0, j - i, t)
    ensures PlainBetween(s, i, j, t)
  {
    forall k | i <= k < j
      ensures !ClosesCapture(s, k, t) && !IsLineTerminator(s[k])
    {
      assert s[k] == s[i..j][k - i];
      if ClosesCapture(s, k, t) {
        ClosesInsideBracketed(s, i, j, k, t);
      }
    }
  }

  /** At `p` the page holds `marker = text;window.APP_FLAGS`, the `;` at
      `ce` being the first one followed by the app flags, with a bracketed
      `text` free of line breaks. */
  predicate AssignmentAt(s: string, p: nat, ce: nat) {
    && p + |StateMarker| + 3 < ce < |s|
    && s[p + |StateMarker|] == ' ' && s[p + |StateMarker| + 1] == '=' && s[p + |StateMarker| + 2] == ' '
    && IsBracketed(s[p + |StateMarker| + 3..ce]) && PlainBetween(s, p + |StateMarker| + 3, ce, Patterns[0])
    && s[ce] == ';' && OccursAt(s, Patterns[0].literal, ce + 1)
  }

  /** A page holding such an assignment at the marker's first occurrence
      locates to the assigned text. */
  lemma LocateAssignment(s: string, p: nat, ce: nat)
    requires !StartsWith(Trim(s), XssiPrefix)
    requires IndexOf(s, StateMarker) == Some(p) && AssignmentAt(s, p, ce)
    ensures Locate(s) == Embedded(s[p + |StateMarker| + 3..ce])
  {
    AssignmentIsCaptured(s, p, ce);
    LocateFirstPatternCapture(s, s[p + |StateMarker| + 3..ce]);
  }

  /** The first pattern captures the assigned text. */
  lemma AssignmentIsCaptured(s: string, p: nat, ce: nat)
    requires IndexOf(s, StateMarker) == Some(p) && AssignmentAt(s, p, ce)
    ensures Capture(s, Patterns[0]) == Some(s[p + |StateMarker| + 3..ce])
  {
    var cs := p + |StateMarker| + 3;
    var t := Patterns[0];
    FirstPatternShape();
    assert OccursAt(s, StateMarker, p);
    assert !IsWhitespace(s[cs]) by {
      BracketedIsTrimmed(s[cs..ce]);
      assert s[cs] == s[cs..ce][0];
    }
    AssignmentMatchesAt(s, p, ce, t);
    FirstMarkerMatchIsCaptured(s, p, cs, ce, t);
  }

  /** An embedding has the shape `LocateAssignment` asks for. */
  lemma EmbedStateIsAssignment(before: string, state: string, after: string)
    requires IsBracketed(state) && PlainBetween(state, 0, |state|, Patterns[0])
    ensures var s := EmbedState(before, state, after);
            var p := |before|;
            var ce := p + |StateMarker| + 3 + |state|;
            AssignmentAt(s, p, ce) && s[p + |StateMarker| + 3..ce] == state
  {
    var s := EmbedState(before, state, after);
    var cs := |before| + |StateMarker| + 3;
    var ce := cs + |state|;
    EmbedStateShape(before, state, after);
    assert state[0] == '[';
    FirstPatternShape();
    PlainSlice(s, cs, ce, Patterns[0]);
  }

  /** Locating a page that embeds a bracketed state gives the state back:
      the marker's first occurrence carries the assignment, and the state
      holds no line break and no inner `;` followed by `window.APP_FLAGS`. */
  lemma LocateEmbeddedState(before: string, state: string, after: string)
    requires IsBracketed(state) && PlainBetween(state, 0, |state|, Patterns[0])
    requires IndexOf(EmbedState(before, state, after), StateMarker) == Some(|before|)
    requires !StartsWith(Trim(EmbedState(before, state, after)), XssiPrefix)
    ensures Locate(EmbedState(before, state, after)) == Embedded(state)
  {
    var s := EmbedState(before, state, after);
    var ce := |before| + |StateMarker| + 3 + |state|;
    EmbedStateIsAssignment(before, state, after);
    LocateAssignment(s, |before|, ce);
    assert s[|before| + |StateMarker| + 3..ce] == state;
  }
}

=== FILE: search.dfy ===
/** The recursive website search over a parsed payload (`findWebsiteInTree`).
    A website is recorded in the payload as an array whose first two entries
    are strings: a URL and its display text. The search walks arrays only,
    depth-first and left to right, stops at the first such pair whose URL is
    an http(s) address outside Google's own map and image hosts, and gives up
    on any branch nested more than `MaxDepth` levels deep. */
module Search {
  import opened Wrappers
  import opened Text
  import opened JsonTree

  /** The deepest level the search still inspects (the root is level 0). */
  const MaxDepth: nat := 50

  predicate IsHttpUrl(url: string) {
    StartsWith(url, "http://") || StartsWith(url, "https://")
  }

  /** Links that point back at Google Maps or its image CDN rather than at
      the place's own website. */
  predicate IsGoogleLink(url: string) {
    Contains(url, "google.com/maps") || Contains(url, "google.com/local") || Contains(url, "ggpht.com")
  }

  predicate IsAllowedUrl(url: string) {
    IsHttpUrl(url) && !IsGoogleLink(url)
  }

  /** The entries of an array form a `[url, text]` pair with an allowed URL. */
  predicate IsWebsitePair(items: seq<Json>) {
    |items| >= 2 && items[0].Str? && items[1].Str? && IsAllowedUrl(items[0].s)
  }

  /** `findWebsiteInTree(v, depth)`, `None` standing for `null`. */
  function FindWebsite(v: Json, depth: nat): (r: Option<string>)
    decreases v
    ensures r.Some? ==> IsAllowedUrl(r.value)
    ensures depth > MaxDepth || !v.Arr? ==> r.None?
  {
    if depth > MaxDepth then None
    else
      match v
      case Arr(items) =>
        if IsWebsitePair(items) then Some(items[0].s)
        else FindInItems(items, depth + 1)
      case _ => None
  }

  /** The `for (const item of data)` loop: the first non-null result among
      the items, each searched one level deeper than their array. */
  function FindInItems(items: seq<Json>, depth: nat): (r: Option<string>)
    decreases items
    ensures r.Some? ==> IsAllowedUrl(r.value)
  {
    if items == [] then None
    else
      match FindWebsite(items[0], depth)
      case Some(url) => Some(url)
      case None => FindInItems(items[1..], depth)
  }

  // ---------------------------------------------------------------------
  // Reference definition: all allowed pairs in pre-order

  /** The URLs of every allowed pair within the depth bound, listed in
      pre-order over arrays (a node before its children, children left to
      right). Unlike the search, this enumeration never stops early. */
  function PreOrder(v: Json, depth: nat): seq<string>
    decreases v
  {
    if depth > MaxDepth then []
    else
      match v
      case Arr(items) =>
        (if IsWebsitePair(items) then [items[0].s] else []) + PreOrderItems(items, depth + 1)
      case _ => []
  }

  function PreOrderItems(items: seq<Json>, depth: nat): seq<string>
    decreases items
  {
    if items == [] then [] else PreOrder(items[0], depth) + PreOrderItems(items[1..], depth)
  }

  function First(urls: seq<string>): Option<string> {
    if urls == [] then None else Some(urls[0])
  }

  lemma FirstOfConcat(a: seq<string>, b: seq<string>)
    ensures First(a + b) == if a != [] then First(a) else First(b)
  {
    if a == [] {
      assert a + b == b;
    }
  }

  /** The search returns exactly the first allowed pair in pre-order: it is
      a short-circuiting version of `PreOrder`. */
  lemma {:induction false} FindIsFirstInPreOrder(v: Json, depth: nat)
    ensures FindWebsite(v, depth) == First(PreOrder(v, depth))
    decreases v
  {
    if depth <= MaxDepth && v.Arr? {
      var items := v.items;
      var head := if IsWebsitePair(items) then [items[0].s] else [];
      FirstOfConcat(head, PreOrderItems(items, depth + 1));
      FindInItemsIsFirstInPreOrder(items, depth + 1);
    }
  }

  lemma {:induction false} FindInItemsIsFirstInPreOrder(items: seq<Json>, depth: nat)
    ensures FindInItems(items, depth) == First(PreOrderItems(items, depth))
    decreases items
  {
    if items != [] {
      FindIsFirstInPreOrder(items[0], depth);
      FindInItemsIsFirstInPreOrder(items[1..], depth);
      FirstOfConcat(PreOrder(items[0], depth), PreOrderItems(items[1..], depth));
    }
  }

  /** A found URL is one of the allowed pairs of the tree; nothing is
      invented. */
  lemma FoundUrlIsAPairOfTheTree(v: Json, depth: nat)
    ensures FindWebsite(v, depth).Some? ==> FindWebsite(v, depth).value in PreOrder(v, depth)
    ensures FindWebsite(v, depth).None? <==> PreOrder(v, depth) == []
  {
    FindIsFirstInPreOrder(v, depth);
  }

  /** An allowed pair is returned as soon as it is seen: neither its own
      children nor the text in its second entry matter. */
  lemma DirectPairWins(url: string, text: string, rest: seq<Json>, depth: nat)
    requires depth <= MaxDepth && IsAllowedUrl(url)
    ensures FindWebsite(Arr([Str(url), Str(text)] + rest), depth) == Some(url)
  {
  }

  /** Children are tried left to right and the first success wins. */
  lemma {:induction false} FindInItemsConcat(a: seq<Json>, b: seq<Json>, depth: nat)
    ensures FindInItems(a + b, depth) ==
      if FindInItems(a, depth).Some? then FindInItems(a, depth) else FindInItems(b, depth)
    decreases |a|
  {
    if a == [] {
      assert a + b == b;
    } else {
      assert (a + b)[0] == a[0];
      assert (a + b)[1..] == a[1..] + b;
      FindInItemsConcat(a[1..], b, depth);
    }
  }

  /** `v` wrapped in `k` single-element arrays. */
  function Nest(k: nat, v: Json): Json {
    if k == 0 then v else Arr([Nest(k - 1, v)])
  }

  /** Wrapping a value in single-element arrays only pushes it deeper. */
  lemma {:induction false} NestIsDeeper(k: nat, v: Json, depth: nat)
    ensures FindWebsite(Nest(k, v), depth) == FindWebsite(v, depth + k)
    decreases k
  {
    if k > 0 {
      NestIsDeeper(k - 1, v, depth + 1);
      var inner := Nest(k - 1, v);
      assert FindInItems([inner], depth + 1) == FindWebsite(inner, depth + 1) by {
        assert [inner][1..] == [];
      }
    }
  }

  /** A pair buried under `k` wrapping arrays is found exactly when it sits
      no deeper than level 50. */
  lemma PairFoundIffWithinDepthLimit(k: nat, url: string, text: string)
    requires IsAllowedUrl(url)
    ensures FindWebsite(Nest(k, Arr([Str(url), Str(text)])), 0) ==
      if k <= MaxDepth then Some(url) else None
  {
    NestIsDeeper(k, Arr([Str(url), Str(text)]), 0);
  }
}

=== FILE: text.dfy ===
/** The string primitives of ECMAScript that the extraction engine relies on:
    the whitespace class shared by `String.prototype.trim` and the regular
    expression escape `\s`, `trim`, `startsWith`, `endsWith`, `indexOf`,
    `includes`, `replace` with a string pattern, and case folding.
    Strings are `seq<char>`, sequences of Unicode scalar values; JavaScript's
    UTF-16 code units (lone surrogates, lengths in code units) are not
    modelled. */
module Text {

  import opened Wrappers

  /** LineTerminator of ECMAScript: the characters `.` does not match. */
  predicate IsLineTerminator(c: char) {
    c == '\n' || c == '\r' || c == '\U{2028}' || c == '\U{2029}'
  }

  /** WhiteSpace or LineTerminator of ECMAScript (space separators included):
      what `trim` strips and what `\s` matches. */
  predicate IsWhitespace(c: char) {
    || c == '\t' || c == '\U{B}' || c == '\U{C}' || c == ' '
    || c == '\U{A0}' || c == '\U{1680}' || ('\U{2000}' <= c <= '\U{200A}')
    || c == '\U{202F}' || c == '\U{205F}' || c == '\U{3000}' || c == '\U{FEFF}'
    || IsLineTerminator(c)
  }

  predicate AllWhitespace(s: string) {
    forall k :: 0 <= k < |s| ==> IsWhitespace(s[k])
  }

  /** `s.startsWith(p)` */
  predicate StartsWith(s: string, p: string) {
    |p| <= |s| && s[..|p|] == p
  }

  /** `s.endsWith(p)` */
  predicate EndsWith(s: string, p: string) {
    |p| <= |s| && s[|s| - |p|..] == p
  }

  /** `sub` occurs in `s` starting at index `i`. */
  predicate OccursAt(s: string, sub: string, i: int) {
    0 <= i && i + |sub| <= |s| && s[i..i + |sub|] == sub
  }

  /** The specification of `s.includes(sub)`. */
  ghost predicate Occurs(s: string, sub: string) {
    exists i :: OccursAt(s, sub, i)
  }

  /** Strips leading whitespace (`trimStart`). */
  function TrimStart(s: string): (r: string)
    ensures |r| <= |s| && r == s[|s| - |r|..]
    ensures AllWhitespace(s[..|s| - |r|])
    ensures r == [] || !IsWhitespace(r[0])
  {
    if |s| > 0 && IsWhitespace(s[0]) then
      var r := TrimStart(s[1..]);
      PeelFront(s, r);
      r
    else s
  }

  /** A leading whitespace character joins the whitespace cut before a
      suffix of the rest. */
  lemma PeelFront(s: string, r: string)
    requires |s| > 0 && IsWhitespace(s[0])
    requires |r| <= |s| - 1 && r == s[1..][|s| - 1 - |r|..] && AllWhitespace(s[1..][..|s| - 1 - |r|])
    ensures r == s[|s| - |r|..] && AllWhitespace(s[..|s| - |r|])
  {
    var t := s[1..];
    assert t[|t| - |r|..] == s[|s| - |r|..];
    assert s[..|s| - |r|] == [s[0]] + t[..|t| - |r|];
  }

  /** Strips trailing whitespace (`trimEnd`). */
  function TrimEnd(s: string): (r: string)
    ensures |r| <= |s| && r == s[..|r|]
    ensures AllWhitespace(s[|r|..])
    ensures r == [] || !IsWhitespace(r[|r| - 1])
  {
    if |s| > 0 && IsWhitespace(s[|s| - 1]) then
      var t := s[..|s| - 1];
      var r := TrimEnd(t);
      assert t[..|r|] == s[..|r|];
      assert s[|r|..] == t[|r|..] + [s[|s| - 1]];
      r
    else s
  }

  /** `s.trim()`: the slice of `s` left once the whitespace at both ends is
      gone. */
  function Trim(s: string): (r: string)
    ensures exists a, b :: 0 <= a <= b <= |s| && r == s[a..b] && AllWhitespace(s[..a]) && AllWhitespace(s[b..])
    ensures r == [] || (!IsWhitespace(r[0]) && !IsWhitespace(r[|r| - 1]))
  {
    var t := TrimStart(s);
    var r := TrimEnd(t);
    InnerSlice(s, t, r);
    r
  }

  /** A prefix `r` of a suffix `t` of `s`, both cut at whitespace, is a slice
      of `s` with whitespace on either side. */
  lemma InnerSlice(s: string, t: string, r: string)
    requires |t| <= |s| && t == s[|s| - |t|..] && AllWhitespace(s[..|s| - |t|])
    requires |r| <= |t| && r == t[..|r|] && AllWhitespace(t[|r|..])
    ensures exists a, b :: 0 <= a <= b <= |s| && r == s[a..b] && AllWhitespace(s[..a]) && AllWhitespace(s[b..])
  {
    var a := |s| - |t|;
    var b := a + |r|;
    assert r == s[a..b];
    assert s[b..] == t[|r|..];
  }

  /** The first index at or after `from` where `sub` occurs, if any. */
  function IndexOfFrom(s: string, sub: string, from: nat): (r: Option<nat>)
    decreases |s| - from
    ensures r.Some? ==> from <= r.value && OccursAt(s, sub, r.value)
    ensures r.Some? ==> forall j :: from <= j < r.value ==> !OccursAt(s, sub, j)
    ensures r.None? ==> forall j :: from <= j ==> !OccursAt(s, sub, j)
  {
    if from + |sub| > |s| then None
    else if s[from..from + |sub|] == sub then Some(from)
    else IndexOfFrom(s, sub, from + 1)
  }

  /** `s.indexOf(sub)`, with `None` for -1. */
  function IndexOf(s: string, sub: string): Option<nat> {
    IndexOfFrom(s, sub, 0)
  }

  /** `s.includes(sub)` */
  predicate Contains(s: string, sub: string) {
    IndexOf(s, sub).Some?
  }

  /** `s.replace(pat, rep)` with a string pattern: only the first occurrence
      is replaced; without an occurrence `s` is returned unchanged. */
  function ReplaceFirst(s: string, pat: string, rep: string): string {
    match IndexOf(s, pat)
    case None => s
    case Some(i) => s[..i] + rep + s[i + |pat|..]
  }

  /** ASCII case folding; the rest of Unicode is left as it is. */
  function LowerChar(c: char): char {
    if 'A' <= c <= 'Z' then (c as int + 32) as char else c
  }

  /** `s.toLowerCase()` restricted to ASCII letters. */
  function Lower(s: string): (r: string)
    ensures |r| == |s|
    ensures forall k :: 0 <= k < |s| ==> r[k] == LowerChar(s[k])
  {
    if s == [] then [] else [LowerChar(s[0])] + Lower(s[1..])
  }

  // ---------------------------------------------------------------------
  // Properties

  /** `includes` agrees with the existence of an occurrence. */
  lemma ContainsIffOccurs(s: string, sub: string)
    ensures Contains(s, sub) <==> Occurs(s, sub)
  {
    if Occurs(s, sub) {
      var i :| OccursAt(s, sub, i);
      assert i >= 0;
    }
  }

  /** Trimming again changes nothing. */
  lemma TrimIdempotent(s: string)
    ensures Trim(Trim(s)) == Trim(s)
  {
    var r := Trim(s);
    TrimStartOfTrimmed(r);
    TrimEndOfTrimmed(r);
  }

  lemma TrimStartOfTrimmed(r: string)
    requires r == [] || !IsWhitespace(r[0])
    ensures TrimStart(r) == r
  {
  }

  lemma TrimEndOfTrimmed(r: string)
    requires r == [] || !IsWhitespace(r[|r| - 1])
    ensures TrimEnd(r) == r
  {
  }

  /** Leading whitespace does not survive a trim. */
  lemma {:induction false} TrimStartSkipsWhitespace(w: string, x: string)
    requires AllWhitespace(w)
    ensures TrimStart(w + x) == TrimStart(x)
    decreases |w|
  {
    if w != [] {
      assert (w + x)[1..] == w[1..] + x;
      assert (w + x)[0] == w[0];
      TrimStartSkipsWhitespace(w[1..], x);
    } else {
      assert w + x == x;
    }
  }

  /** ... and so `trim(w + x) == trim(x)` for whitespace `w`. */
  lemma TrimSkipsWhitespace(w: string, x: string)
    requires AllWhitespace(w)
    ensures Trim(w + x) == Trim(x)
  {
    TrimStartSkipsWhitespace(w, x);
  }

  /** A prefix of the trimmed text is a prefix of the text after its
      leading whitespace. */
  lemma TrimmedPrefix(s: string, p: string)
    requires StartsWith(Trim(s), p)
    ensures StartsWith(TrimStart(s), p)
  {
    var t := TrimStart(s);
    assert Trim(s) == t[..|Trim(s)|];
    assert t[..|p|] == Trim(s)[..|p|];
  }

  /** An occurrence right after a run of whitespace is the first one when
      the pattern does not start with whitespace. */
  lemma FirstOccurrenceAfterWhitespace(s: string, p: string, a: nat)
    requires p != [] && !IsWhitespace(p[0])
    requires a <= |s| && AllWhitespace(s[..a]) && OccursAt(s, p, a)
    ensures IndexOf(s, p) == Some(a)
  {
    forall j | 0 <= j < a
      ensures !OccursAt(s, p, j)
    {
      assert s[..a][j] == s[j];
    }
  }

  /** When the trimmed text starts with `p` (whose first character is not
      whitespace), replacing the first occurrence of `p` by nothing and
      trimming leaves exactly the trimmed text after that leading `p`. */
  lemma StripTrimmedPrefix(s: string, p: string)
    requires p != [] && !IsWhitespace(p[0])
    requires StartsWith(Trim(s), p)
    ensures StartsWith(TrimStart(s), p)
    ensures Trim(ReplaceFirst(s, p, "")) == Trim(TrimStart(s)[|p|..])
  {
    TrimmedPrefix(s, p);
    var t := TrimStart(s);
    var a := |s| - |t|;
    assert s[a..a + |p|] == t[..|p|];
    FirstOccurrenceAfterWhitespace(s, p, a);
    var w := s[..a];
    RemoveOccurrence(s, p, a);
    assert s[a + |p|..] == t[|p|..];
    TrimSkipsWhitespace(w, t[|p|..]);
  }

  /** A text that starts with `p` (whose first character is not
      whitespace) loses exactly that leading `p` when the first occurrence
      of `p` is replaced by nothing. */
  lemma StripLeadingPrefix(s: string, p: string)
    requires p != [] && !IsWhitespace(p[0]) && StartsWith(s, p)
    ensures ReplaceFirst(s, p, "") == s[|p|..]
  {
    assert s[..0] == [];
    FirstOccurrenceAfterWhitespace(s, p, 0);
    RemoveOccurrence(s, p, 0);
  }

  /** Replacing the first occurrence by nothing cuts it out. */
  lemma RemoveOccurrence(s: string, p: string, a: nat)
    requires IndexOf(s, p) == Some(a)
    ensures ReplaceFirst(s, p, "") == s[..a] + s[a + |p|..]
  {
  }

  /** Where the three parts of `a + b + c` sit. */
  lemma ConcatParts(a: string, b: string, c: string)
    ensures var u := a + b + c;
            StartsWith(u, a) && EndsWith(u, c) && |u| == |a| + |b| + |c| && u[|a|..|u| - |c|] == b
  {
    var u := a + b + c;
    assert u[..|a|] == a;
    assert u[|u| - |c|..] == c;
    assert u[|a|..|u| - |c|] == b;
  }
}

=== FILE: wrappers.dfy ===
/** The two wrappers used across the model: an optional value (JavaScript's
    `null`/`undefined` versus a present value) and a result that carries
    either a value or an error message. */
module Wrappers {

  datatype Option<+T> = None | Some(value: T)

  datatype Result<+R, +E> = Success(value: R) | Failure(error: E)
}
